=== FILE: README.md ===
# Neighbor-Fit core logic, modelled in Dafny

Neighbor-Fit is a Next.js front-end for a neighbourhood fitness-social
platform. It has no backend: every page works on hard-coded records and
simulated services. This project models the small, pure pieces of logic
inside its pages and components, and proves properties about them:

- **Activities page**: which activities are listed. The tab, the
  case-insensitive search and the OR-combined filter chips are joined by
  AND. The model also covers the join toggle, the tab counters, and the
  colour and icon lookups.
- **Search box**: the chip list behaves as a set kept in insertion order.
  Every change is forwarded to the page.
- **Explore page**: a narrower search over activities and people. The
  page stores the chips but never applies them.
- **Payment page**: the card-number and expiry-date formatters, the length
  guards of their change handlers, the plan table and the amount to pay.
- **Profile page**:
  - login and registration checks, which run in order and report the
    first failure;
  - the profile records built on success;
  - logout;
  - the preference chips.
- **Pricing cards**: prices, struck-through prices and checkout ids by
  interval, the button's route and the rounded per-month figure.
- **Header**: which navigation item is highlighted, and the mobile menu.
- **Typewriter banner**: the word-mode step function and the single-text
  reveal.
- **Live feed**: selecting an entry derives the details panel. The model
  also covers the close button, the badge colours and the price label.
- **Activity map**: the map library becomes a multiset of markers on the
  map plus a log of camera commands. The model covers the marker rebuild,
  the single user marker, fly-to on click, "View Details", "My Location"
  and fit-to-all.

Modules:

| module | file |
|---|---|
| `Options`, `Seqs`, `Text` | shared helpers: `Option`, order-preserving filter and subsequence, JavaScript string operations |
| `ActivitiesPage` | activities.dfy |
| `SearchInterface` | search_interface.dfy |
| `ExplorePage` | explore.dfy |
| `PaymentPage` | payment.dfy |
| `ProfilePage` | profile.dfy |
| `PricingSection` | pricing.dfy |
| `Header` | header.dfy |
| `Typewriter` | typewriter.dfy |
| `LiveDataPage` | live_data.dfy |
| `ActivityMap` | activity_map.dfy |

JavaScript semantics are written out as follows:

- `s.toLowerCase().includes(q.toLowerCase())` becomes `Text.Includes`, a
  substring test after ASCII lower-casing. The empty query is contained in
  every string.
- `startsWith` becomes `Text.IsPrefix`.
- `replace(/[^0-9]/g, "")` becomes `Text.KeepDigits`.
- `Array.find` returns the first match.
- `Math.round(n / 12)` on a whole number becomes `(n + 6) / 12`.
- Ratings are whole tenths of a star.
- Coordinates are integer pairs, compared only by order, to build the fit-all box.
- An absent optional flag (`isJoined?`) reads as `false`.

Two behaviours of the code are worth stating up front:

- **The join toggle.** The join button always adds a participant, whether
  it joins or leaves (see Findings).
- **Marker updates.** `updateMarkers` removes every marker and recreates
  one per activity. `ActivityMap.UpdateMarkers` models this full rebuild:
  every marker is a separate object with its own handle.
  `ActivityMap.UpdateMarkersTwiceRebuilds` shows that a second update
  with the same list shows the same activities in the same order, through
  new markers, and none of the earlier markers survives.

## Model

| member | source | states |
|---|---|---|
| ActivitiesPage.ByTab | app/activities/page.tsx:422-431 | The "all" tab returns the list unchanged. "Joined" keeps every copy of each joined record and nothing else, and "hosting" the same for hosted records. The result is an order-preserving subsequence of the list. |
| ActivitiesPage.VisibleActivities | app/activities/page.tsx:433-451 | The listed activities are an order-preserving subsequence of all activities. A record is listed iff it is on the tab AND matches the search AND matches the chips, and then every copy of it is listed. |
| ActivitiesPage.EmptyQueryMatchesAll | app/activities/page.tsx:434-438 | An empty search query matches every activity. |
| ActivitiesPage.NoConstraintsShowsAll | app/activities/page.tsx:433-451 | With no query, no chips and the "all" tab, every activity is listed, in order. |
| ActivitiesPage.NoSearchShowsTab | app/activities/page.tsx:433-451 | With no query and no chips, the list is exactly the tab's list. |
| ActivitiesPage.MoreChipsWiden | app/activities/page.tsx:440-448 | Chips combine with OR: adding a chip never hides an activity that a non-empty chip list showed. |
| ActivitiesPage.LongChipMatchesNothing | app/activities/page.tsx:440-448 | Containment runs field-contains-chip. A chip longer than every tag, the difficulty, the category and the type matches nothing, so a one-chip list hides the record. |
| ActivitiesPage.ToggleJoin | app/activities/page.tsx:459-469 | For the records with the id, `isJoined` is negated and `participants` grows by one, whichever way the flag goes. Every other field and every other record is unchanged, and the length is kept. |
| ActivitiesPage.JoinAsWritten | app/activities/page.tsx:462-466 | One record as the code toggles it: `isJoined` negated, one more participant, every other field kept. |
| ActivitiesPage.ToggleJoinUnknownId | app/activities/page.tsx:459-469 | A toggle with an id that no record has leaves the list unchanged. |
| ActivitiesPage.ToggleJoinTwiceDrifts | app/activities/page.tsx:459-469 | Two toggles restore `isJoined` but leave two extra participants. |
| ActivitiesPage.JoinIntendedInvolutive | app/activities/page.tsx:459-469 | Under the corrected toggle (leaving takes one participant off), a record whose joined viewer is counted is restored by two toggles. |
| ActivitiesPage.JoinIntended | app/activities/page.tsx:459-469 | One record under the corrected toggle: joining adds a participant, leaving removes one unless there are none, every other field kept. |
| ActivitiesPage.ToggleJoinIntended | app/activities/page.tsx:459-469 | The corrected toggle: joining adds one participant and leaving removes one, staying at 0 when the count is already 0. Everything else is unchanged. |
| ActivitiesPage.ToggleJoinIntendedTwiceRestores | app/activities/page.tsx:459-469 | Under the corrected toggle, two presses restore every record exactly. |
| ActivitiesPage.GetTabCounts | app/activities/page.tsx:479-485 | The "all" count is the list length. The joined count is the number of positions holding a joined record, and the hosting count the number holding a hosted one. |
| ActivitiesPage.TabCountsMatchTabs | app/activities/page.tsx:479-485 | Each counter equals the number of cards its tab lists with no query and no chips. |
| ActivitiesPage.DifficultyTextColor | app/activities/page.tsx:393-404 | Green, yellow and red text for the three levels, each iff that level. White for anything else. |
| ActivitiesPage.CategoryColor | app/activities/page.tsx:406-419 | One colour pair per category, each iff that category. Grey for anything else. |
| ActivitiesPage.KnownValuesAreColoured | app/activities/page.tsx:393-419 | Every category and difficulty a record can carry gets its own colour, never the fallback. |
| ActivitiesPage.CardIconFor | app/activities/page.tsx:370-391 | Looked up on the lower-cased type, each icon iff its types: the pine for "yoga", the dumbbell for "hiit" and "martial arts", the bike for "cycling", the waves for "swimming", the users icon for "dance", and the activity icon for "running", "rock climbing" and every unknown type. |
| ActivitiesPage.CardIconIgnoresCase | app/activities/page.tsx:371 | A type and its lower-cased form get the same icon. |
| SearchInterface.ToggleChip | components/ui/search-interface.tsx:43-46 | Toggling flips the chip's membership and leaves every other chip's membership alone. An absent chip is appended at the end. |
| SearchInterface.RemoveKeepsOthers | components/ui/search-interface.tsx:44-45 | Removing a chip keeps the other chips in their relative order. |
| SearchInterface.ToggleKeepsNoDup | components/ui/search-interface.tsx:44-46 | A list without duplicates has none after a toggle. |
| SearchInterface.ToggleTwiceRestores | components/ui/search-interface.tsx:44-46 | Toggling an absent chip twice restores the list exactly. |
| SearchInterface.Handle | components/ui/search-interface.tsx:38-55 | Typing stores the value, reports that same value once and leaves the chips alone. A toggle stores the toggled list, clear stores the empty list, and each reports exactly the new list once and leaves the query alone. The panel button reports nothing and changes only the panel flag. |
| SearchInterface.RunKeepsPageInSync | components/ui/search-interface.tsx:38-55 | Over any sequence of interactions with the search box itself, the page's copy of the query and of the chips equals the box's. |
| SearchInterface.PageClearSearch | app/explore/page.tsx:481 | The page's "Clear Search" empties the page's query and keeps its chips; the box is not told. |
| SearchInterface.ClearSearchDesyncs | app/explore/page.tsx:481 | After typing a non-empty query, "Clear Search" leaves the page and the box disagreeing about the query. |
| SearchInterface.ClearSearchIntended | app/activities/page.tsx:822 | The corrected "Clear Search" empties both the box's text and the page's query, and keeps the chips on both sides. |
| SearchInterface.RunWithClearKeepsPageInSync | components/ui/search-interface.tsx:38-55 | With the corrected "Clear Search", the page and the box agree on the query and the chips after any sequence of box interactions and clears. |
| ExplorePage.FilteredActivities | app/explore/page.tsx:243-248 | An order-preserving subsequence. Kept iff the title, type or location contains the query, ignoring case, and then with every copy. The organizer is not searched. An empty query keeps all. |
| ExplorePage.FilteredPeople | app/explore/page.tsx:250-254 | An order-preserving subsequence. Kept iff the name or some interest contains the query, ignoring case, and then with every copy. An empty query keeps all. |
| ExplorePage.Render | app/explore/page.tsx:311-475 | The tab badges equal the filtered lengths. The empty state shows iff the active tab's filtered list is empty. |
| ExplorePage.ChipsAreIgnored | app/explore/page.tsx:61 | What the page shows does not depend on the stored chips. |
| ExplorePage.EmptyQueryShowsEverything | app/explore/page.tsx:243-254 | An empty query shows every activity and every person. |
| ExplorePage.ClearSearchLeavesEmptyStateOnlyForEmptyData | app/explore/page.tsx:474-482 | After "Clear Search", the empty state remains iff the active tab has no data at all. |
| Text.KeepDigits | app/payment/page.tsx:140 | Stripping non-digits yields only digits and never lengthens the input. |
| Text.NatToStringRoundTrip | app/live-data/page.tsx:385 | Reading back the decimal rendering of a number gives the number. |
| Text.Utf16Length | app/profile/page.tsx:271 | A string's JavaScript length is at least its character count and at most twice it. It is 0 iff the string is empty, and equals the character count iff no character lies outside the Basic Multilingual Plane. |
| PaymentPage.Group4Digits | app/payment/page.tsx:143-148 | Removing the spaces of the grouped digits gives the digits back. |
| PaymentPage.Group4 | app/payment/page.tsx:143-148 | Grouping never shortens the digits, and changes them iff there are more than four. |
| PaymentPage.Group4Length | app/payment/page.tsx:143-148 | Grouping adds one space per full group of four except the last. |
| PaymentPage.FormatCardNumber | app/payment/page.tsx:139-152 | The output is digits and spaces only. Its digits are the input's digits cut to the first 16. Fewer than four digits come back bare. The output has a space exactly at every fifth position, none at the end, and is at most 19 long. |
| PaymentPage.FormatCardNumberIdempotent | app/payment/page.tsx:139-152 | Formatting a formatted card number changes nothing. |
| PaymentPage.FormatExpiryDate | app/payment/page.tsx:154-160 | Fewer than two digits come back bare. Otherwise the output is the first two digits, a slash, and then only digits, at most two of them. Its digits are the input's first four. The length is at most 5. |
| PaymentPage.FormatExpiryDateIdempotent | app/payment/page.tsx:154-160 | Formatting a formatted expiry date changes nothing. |
| PaymentPage.GuardsAlwaysAccept | app/payment/page.tsx:162-174 | Neither change handler's length guard ever rejects a formatted value. |
| PaymentPage.CardNumberChange | app/payment/page.tsx:162-167 | The card field takes the formatted input or keeps its value, and never grows past 19 characters. |
| PaymentPage.ExpiryChange | app/payment/page.tsx:169-174 | The expiry field takes the formatted input or keeps its value, and never grows past 5 characters. |
| PaymentPage.FindPlan | app/payment/page.tsx:189 | Finds the first plan in the table with that id: every plan before it has another id. Fails iff no plan has the id. |
| PaymentPage.TotalAmount | app/payment/page.tsx:189-191 | In booking mode, the booked activity's price, or 0 with none. Otherwise, for every plan in the table with the chosen id, the amount is that plan's price for the cycle; it is 0 iff no plan with that id has a non-zero price for the cycle. |
| PaymentPage.PlanPrices | app/payment/page.tsx:71-112 | Community costs 0/0, pro 499/4990 and elite 999/9990 (monthly/yearly). An unknown id costs 0. |
| ProfilePage.ValidateLogin | app/profile/page.tsx:208-216 | Passes iff the email and password are non-empty and the email has '@'. An empty field gives "Please fill in all fields" before the '@' check. |
| ProfilePage.HandleLogin | app/profile/page.tsx:201-244 | A failed check sets only the error. Success signs in with the entered email, clears the login form, keeps the register form and clears the error. |
| ProfilePage.LoginSucceedsExactlyWhenValid | app/profile/page.tsx:201-244 | A signed-out user is signed in by the login button iff the email and password are filled in and the email has an '@'. |
| ProfilePage.LoginProfile | app/profile/page.tsx:224-233 | The mock account carries the entered email, the name "Priya Sharma", age 28 and level Intermediate. |
| ProfilePage.ValidateRegister | app/profile/page.tsx:260-279 | An empty name, email, password or confirmation is reported as "Please fill in all required fields" before any other check. |
| ProfilePage.RegisterAcceptsExactly | app/profile/page.tsx:260-279 | Registration passes iff the four required fields are non-empty, the email has '@', the password is at least 6 UTF-16 code units long and equals the confirmation. |
| ProfilePage.RegisterFirstFailure | app/profile/page.tsx:260-279 | Each message is reported iff every earlier check passed and its own check failed. "Too short" means fewer than 6 UTF-16 code units, as JavaScript's `length` counts. |
| ProfilePage.AstralPasswordIsLongEnough | app/profile/page.tsx:271 | A password of three characters outside the Basic Multilingual Plane is long enough, since JavaScript counts six code units. |
| ProfilePage.RegisteredProfile | app/profile/page.tsx:287-296 | The name and email are copied. An empty phone becomes "+91 00000 00000" and an empty location "India". Occupation is "Professional", age 25, level Beginner. |
| ProfilePage.HandleRegister | app/profile/page.tsx:254-314 | A failed check sets only the error. Success signs in with the registered profile and clears the register form. |
| ProfilePage.RegisterSuccessImpliesValid | app/profile/page.tsx:260-303 | A sign-in by registration means every check held on the form, including a password of at least 6 UTF-16 code units. |
| ProfilePage.HandleLogout | app/profile/page.tsx:324-339 | Signed out, with empty strings, age 25 and level Beginner. The forms and the error are untouched. |
| ProfilePage.LogoutForgetsProfile | app/profile/page.tsx:324-339 | The state after logout does not depend on the previous profile. |
| ProfilePage.ToggleGoal | app/profile/page.tsx:797-801 | Flips that goal, leaves the other goals and every other preference alone, and appends an addition at the end. |
| ProfilePage.ToggleActivity | app/profile/page.tsx:820-824 | Flips that activity, leaves the other activities and every other preference alone, and appends an addition at the end. |
| ProfilePage.ToggleGoalTwice | app/profile/page.tsx:797-801 | Pressing an unselected goal twice restores the preferences. |
| PricingSection.ToggleInterval | components/ui/pricing-section.tsx:125 | The button flips month and year. |
| PricingSection.ToggleIntervalTwice | components/ui/pricing-section.tsx:125 | Two presses restore the interval. |
| PricingSection.Plans | components/ui/pricing-section.tsx:29-98 | Three cards: community, pro and elite. Community is free, monthly and never struck through. Pro costs 499 a month or 4990 a year, elite 999 or 9990; under yearly billing they are struck through from 5988 and 11988, under monthly not at all. The paid cards follow the chosen interval. |
| PricingSection.CardPriceIsCharged | components/ui/pricing-section.tsx:29-98 | Every card's price equals the amount the checkout page charges for the same plan id and billing cycle (app/payment/page.tsx:71-112, 189-191). |
| PricingSection.OriginalPriceIsTwelveMonths | components/ui/pricing-section.tsx:29-98 | A struck-through price exists only under yearly billing, and then for every paid plan. It is twelve times that plan's monthly price. |
| PricingSection.CheckoutIdsFollowInterval | components/ui/pricing-section.tsx:29-98 | The community plan is free with "price_free". Paid plans use "price_<id>_monthly" or "price_<id>_yearly" by interval. |
| PricingSection.SelectPlanRoute | components/ui/pricing-section.tsx:100-108 | Routes to "/profile?plan=free" iff the price is 0. Otherwise routes to "/payment?plan=" followed by the id. |
| PricingSection.RoundDiv12 | components/ui/pricing-section.tsx:186 | The result is within half of n/12. |
| PricingSection.PerMonthLine | components/ui/pricing-section.tsx:184-187 | The per-month line shows iff billing is yearly and the plan is paid, and its figure rounds price/12. |
| PricingSection.YearlyPerMonthFigures | components/ui/pricing-section.tsx:184-187 | The yearly cards show 416 for pro and 833 for elite, none for community, and no monthly card shows a per-month line. |
| Header.HomeActiveOnlyAtRoot | components/layout/header.tsx:22-24 | Home is highlighted iff the path is exactly "/". |
| Header.IsActive | components/layout/header.tsx:21-26 | A highlighted link's href is a beginning of the path. |
| Header.OwnPageIsActive | components/layout/header.tsx:21-26 | Every navigation link is highlighted on its own page, and every link but Home on every page below it. |
| Header.SubPathKeepsSectionActive | components/layout/header.tsx:25 | Any path under "/activities" highlights Activities. |
| Header.AtMostOneActive | components/layout/header.tsx:13-26 | For any path, at most one item of the table is highlighted, and on "/" only Home. |
| Header.MenuStep | components/layout/header.tsx:83-100 | The menu button flips the open flag. A mobile link closes the menu. |
| Header.MenuButtonTwice | components/layout/header.tsx:83-100 | Two presses of the menu button restore the flag, and a link click afterwards closes the menu as it would have before. |
| Typewriter.Step | components/ui/typewriter.tsx:48 | Word mode takes a step iff there is at least one word. |
| Typewriter.StepKeepsWf | components/ui/typewriter.tsx:50-72 | Each tick keeps the index within the words and the text a prefix of the current word. The text grows only while typing and shrinks only while deleting, by at most one character. The word changes only at empty text. |
| Typewriter.TypingCompletesWord | components/ui/typewriter.tsx:63-64 | Typing reaches the whole word after one tick per missing character, at the same index. |
| Typewriter.DeletingMovesOn | components/ui/typewriter.tsx:55-60 | Deleting empties the text after one tick per character. The next tick clears deleting and advances the index modulo the word count. |
| Typewriter.WordCycle | components/ui/typewriter.tsx:50-72 | From an empty banner at word i, after 2·\|word\|+2 ticks the banner is empty at word (i+1) mod n. |
| Typewriter.SingleTextFrames | components/ui/typewriter.tsx:28-41 | Single-text mode shows text[..i] for i = 0..len: from empty to the whole text, each frame a prefix. These are the frames a stable `words` array gives (see Findings). |
| Typewriter.FramesGrowByOne | components/ui/typewriter.tsx:33-35 | Each frame extends the previous one by exactly the next character. |
| Typewriter.ModesExclusive | components/ui/typewriter.tsx:28-48 | When single-text mode runs, word mode takes no step. |
| Typewriter.RevealTick | components/ui/typewriter.tsx:31-38 | With a stable `words` array, a tick shows the first i characters and counts on, and past the end changes nothing. |
| Typewriter.RevealTickUnstable | components/ui/typewriter.tsx:14-44 | With `words` defaulted, a tick either counts on without changing the screen or restarts the counter at 0. |
| Typewriter.StableRevealShowsFrames | components/ui/typewriter.tsx:28-41 | With a stable `words` array, tick k+1 shows frame k, up to the whole text. |
| Typewriter.UnstableRevealRestarts | components/ui/typewriter.tsx:14-44 | With `words` defaulted, the screen only ever holds the empty text or the first character. |
| Typewriter.UnstableRevealNeverFinishes | components/ui/typewriter.tsx:14-44 | With `words` defaulted, a text of two or more characters is never shown whole, while a stable array shows it after len+1 ticks. |
| LiveDataPage.FindById | app/live-data/page.tsx:207 | Finds the first entry with the id, and fails iff no entry has it. |
| LiveDataPage.DetailsFor | app/live-data/page.tsx:211-229 | The details copy the id, title, instructor, location, participants, capacity, price, difficulty, start time and duration. The instructor rating is the rating. The next session is "Tomorrow at " + start time. The description starts with "Join " + instructor and mentions the type, ignoring case. |
| LiveDataPage.HandleActivityClick | app/live-data/page.tsx:206-231 | An unknown id changes nothing. A known id selects it and fills the details from the first feed entry with that id: every entry before it has another id. |
| LiveDataPage.Description | app/live-data/page.tsx:214 | The description starts with "Join " and the instructor, and contains the lower-cased type right after " for an amazing ". |
| LiveDataPage.ClickIdempotent | app/live-data/page.tsx:206-231 | Clicking the same entry twice is clicking it once. |
| LiveDataPage.ClickForgetsPrevious | app/live-data/page.tsx:206-231 | Once the id is in the feed, the result of a click does not depend on what was selected before. |
| LiveDataPage.Close | app/live-data/page.tsx:402 | Closing clears the selection and keeps the details. |
| LiveDataPage.CloseKeepsPanelOpen | app/live-data/page.tsx:398-402 | After a click and a close, the details panel is still shown. |
| LiveDataPage.DifficultyColor | app/live-data/page.tsx:233-244 | Three distinct colour classes, each iff its level. Slate for anything else. |
| LiveDataPage.PriceLabel | app/live-data/page.tsx:385 | "Free" iff the price is 0. Otherwise "$" followed by the price in decimal: digits without a leading zero whose value is the price. |
| LiveDataPage.PanelPriceMatchesCard | app/live-data/page.tsx:425 | The details panel shows the same price label as the clicked card. |
| ActivityMap.DifficultyHex | components/ui/mapbox-activity-map.tsx:180-191 | #10b981, #f59e0b and #ef4444, each iff its level. #6b7280 for anything else. |
| ActivityMap.KnownDifficultiesAreColoured | components/ui/mapbox-activity-map.tsx:180-191 | No level an activity can carry gets the grey fallback. |
| ActivityMap.DifficultyFallbacksAgree | components/ui/mapbox-activity-map.tsx:180-191 | The marker colour falls back to grey iff the list card's text colour (app/activities/page.tsx:393-404) falls back to white. |
| ActivityMap.GlyphFor | components/ui/mapbox-activity-map.tsx:157-178 | Looked up on the lower-cased type, each glyph iff its type: meditating for "yoga", flexing for "hiit", cycling, swimming, dancing, martial arts and climbing for their own types, and running for "running" and every unknown type. |
| ActivityMap.GlyphIgnoresCase | components/ui/mapbox-activity-map.tsx:158 | A type and its lower-cased form get the same glyph. |
| ActivityMap.UpdateMarkers | components/ui/mapbox-activity-map.tsx:193-292 | Without a map nothing happens. Otherwise the recorded markers become one new marker per activity, with handles not used before, and the map loses the old ones and gains the new ones. The user marker, the camera and the selections are untouched. |
| ActivityMap.UpdateMarkersKeepsWf | components/ui/mapbox-activity-map.tsx:193-292 | When ready, the map afterwards shows one new marker per activity, in list order, plus the user marker it had. Every old activity marker is gone, every new one was not on the map before, and the map's record of its markers stays consistent. |
| ActivityMap.UpdateMarkersTwiceRebuilds | components/ui/mapbox-activity-map.tsx:193-292 | A second update with the same list shows the same activities in the same order, through new markers. None of the first update's markers survives, and a non-empty list gets different markers. |
| ActivityMap.UpdateUserMarker | components/ui/mapbox-activity-map.tsx:294-329 | Without a map or a position, nothing happens. Otherwise the old user marker is removed and a new one is created at the position. The activity markers are untouched. |
| ActivityMap.UpdateUserMarkerKeepsWf | components/ui/mapbox-activity-map.tsx:294-329 | Moving the user marker keeps the map's record of its markers consistent, and the old user marker is no longer shown. |
| ActivityMap.AtMostOneUserPin | components/ui/mapbox-activity-map.tsx:297-328 | In a consistent map, any user marker shown is the recorded one, and it is shown once. |
| ActivityMap.MarkerClick | components/ui/mapbox-activity-map.tsx:276-286 | A marker click passes its activity to the handler, if given, and flies to its coordinates at zoom 15 over 1000 ms. Nothing but the camera log and the handler log changes. |
| ActivityMap.ClickReportsItsActivity | components/ui/mapbox-activity-map.tsx:200-291 | Clicking the k-th marker built by an update reports the k-th activity. |
| ActivityMap.ViewDetails | components/ui/mapbox-activity-map.tsx:331-339 | With a map, "View Details" flies to the activity at zoom 16 over 1500 ms. Without one, nothing happens. Nothing but the camera log changes. |
| ActivityMap.MyLocation | components/ui/mapbox-activity-map.tsx:384 | With a map, "My Location" flies to the user at zoom 14 with no duration given. Nothing but the camera log changes. |
| ActivityMap.BoundsOf | components/ui/mapbox-activity-map.tsx:343-351 | The extended box contains every point, and each side touches a point. |
| ActivityMap.BoundsOfIsSmallest | components/ui/mapbox-activity-map.tsx:343-351 | Any box containing all the points contains the extended box. |
| ActivityMap.FitAll | components/ui/mapbox-activity-map.tsx:341-358 | No camera command without a map or with no activities. Otherwise one fit command, with padding 50 and 1000 ms, whose box contains every activity and the user position if known, and touches one of them on each side. Nothing but the camera log changes. |
| ActivityMap.CameraKeepsWf | components/ui/mapbox-activity-map.tsx:276-384 | The camera operations leave the markers consistent. |

## Findings

| source | as written | input that shows it | evidently intended | confidence | as-written member | corrected member |
|---|---|---|---|---|---|---|
| app/activities/page.tsx:459-469 | The join button always adds 1 to `participants` and negates `isJoined`, so leaving an activity also adds a participant. | Press join twice on an unjoined activity with 5 participants. `isJoined` returns to false and participants reads 7. | Joining adds one participant and leaving removes one, so two presses restore the record. | not executed | ActivitiesPage.ToggleJoinTwiceDrifts | ActivitiesPage.ToggleJoinIntendedTwiceRestores |
| components/ui/typewriter.tsx:14-44 | `words` defaults to a new empty array on every render and is a dependency of the single-text effect. Each change of the shown text re-renders, re-runs the effect and restarts its interval at 0. | Render `<Typewriter text="Hi" />` without `words`. The screen alternates between "" and "H" and never shows "Hi". | The single-text reveal shows the text one character per tick and stops at the whole text. | not executed | Typewriter.UnstableRevealNeverFinishes | Typewriter.StableRevealShowsFrames |
| app/explore/page.tsx:481 | "Clear Search" calls the page's own `setSearchQuery("")`. The search box keeps its own text (components/ui/search-interface.tsx:21, 66), and app/activities/page.tsx:822 does the same. | On the activities tab, type "zzz", which matches no title, type or location, so the empty state and its "Clear Search" button appear. Press it. The list shows everything while the box still reads "zzz". | Clearing the search empties the box as well, so the box and the list agree. | not executed | SearchInterface.ClearSearchDesyncs | SearchInterface.RunWithClearKeepsPageInSync |

`ActivitiesPage.ToggleJoin` models the code as written.
`ActivitiesPage.ToggleJoinIntended` is the corrected definition.
`Typewriter.RevealTickUnstable` models the single-text reveal when `words` is left out. `Typewriter.RevealTick` models it with a stable array, and `Typewriter.SingleTextFrames` gives the frames it shows.
The only caller in the repository (components/sections/hero.tsx:94) uses word mode, so the typewriter defect is latent.
`SearchInterface.PageClearSearch` is the pages' "Clear Search" as written. `SearchInterface.ClearSearchIntended` is the corrected one, used by `SearchInterface.RunWithClear`.

## Left out

- Haversine distance, the distance strings and distance sorting: floating-point trigonometry and `toFixed`.
- The geolocation request and its fallback position: browser I/O.
- The map library: loading, the access token, map construction, the 3-D layer, controls, popups and marker styling. Only the marker collection and the camera commands are modelled.
- The exact values of the map's bounds: the library's bounds object becomes an integer box.
- localStorage persistence and session restore: storage I/O with JSON parsing.
- Simulated delays:
  - the login, registration and payment waits;
  - the activities page's loading timer;
  - the live page's refresh timers and random statistic drift.

  Each handler is modelled as if the wait had already passed.
- Typewriter.Step: the timer delays (`speed`, `deleteSpeed`, `delayBetweenWords`) are not modelled, and the pause before deleting is part of the step that starts deleting. The `isTyping` flag is not modelled, because nothing renders it. Because the pause is folded into one step, the model cannot show that the pause's inner `setTimeout` (components/ui/typewriter.tsx:67-70) is never cleared by the effect's cleanup (line 77). A re-render during the pause re-runs the effect and queues a second start-deleting timeout, which can later delete a half-typed word or skip a word; with the hero's inline `words` literal (components/sections/hero.tsx:94-99) and its re-render every 3 seconds (hero.tsx:66-71) this can happen. `WordCycle` states only the clean cycle.
- Typewriter.Step: lengths, `slice` and `substring` are counted in characters, not in UTF-16 code units as at components/ui/typewriter.tsx:33-34, 56-57 and 63-64. A word with a character above U+FFFF takes one tick per code unit in the source, and one frame shows a lone surrogate; the model takes one tick per character. The hero's words are ASCII, where the two counts agree.
- Text.ToLower: folds only ASCII letters, because JavaScript's full Unicode case mapping is not modelled. Every field in the hard-coded data is ASCII, but a query is typed by the user: a typed non-ASCII capital (for example 'É') is not folded here, while JavaScript would fold it.
- The "Login failed" and "Registration failed" messages of the `catch` blocks: the validated code in the `try` blocks cannot throw without the storage I/O.
- The live page's `reviews` count: it is `Math.floor(rating * 20)` on a floating-point rating.
- Average ratings as decimals: ratings are whole tenths of a star.
- The activities page's console message for paid joins (app/activities/page.tsx:475) and the payment page's confirmation-email message (app/payment/page.tsx:186): logging only.
- SearchInterface.Handle: always reports chip changes, while the source calls the optional `onFiltersChange` only when a page passes it. Every page that uses the chips passes it.
- The explore page's icon and colour lookups: markup-only constant tables.
- The documentation page, loading screen, layout, landing page and the marketing sections: presentation only.
- The animated button: a wrapper over unseen styling libraries.
- ActivityMap.MarkerClick: the parent's `onActivitySelect` handler is recorded as a log of the activities it receives, and what the parent does with them is not modelled. The map panel's close button, which passes `null` to that handler, is not modelled.
- ActivityMap.UpdateMarkers: marker objects are told apart by a handle drawn from a counter; the library's element identity is not modelled further. The map is "ready" when both the map and the library are loaded. The source checks `map` alone in `flyToActivity` and `fitAllActivities`, but it sets `map` only after loading the library, so the two checks agree.

=== FILE: activities.dfy ===
/** The activity discovery page (app/activities/page.tsx): the activity
    records, the tab / search / filter-chip composition that decides what
    is listed, the join toggle, the tab counters and the colour and icon
    lookups. */
module ActivitiesPage {
  import Seqs
  import opened Text

  /** A `[lng, lat]` pair. Coordinates are opaque to this model: fixed-point
      integers standing for the decimal degrees of the source. */
  datatype LngLat = LngLat(lng: int, lat: int)

  datatype Difficulty = Beginner | Intermediate | Advanced

  function DifficultyName(d: Difficulty): string {
    match d
    case Beginner => "Beginner"
    case Intermediate => "Intermediate"
    case Advanced => "Advanced"
  }

  datatype Category = Outdoor | Indoor | Water | Group

  function CategoryName(c: Category): string {
    match c
    case Outdoor => "outdoor"
    case Indoor => "indoor"
    case Water => "water"
    case Group => "group"
  }

  /** `rating` is in tenths of a star (4.8 is 48). */
  datatype Organizer = Organizer(name: string, rating: nat, verified: bool)

  /** A `FitnessActivity`. The optional `isJoined` / `isHosted` flags are
      plain booleans here: an absent flag reads as false. */
  datatype Activity = Activity(
    id: string,
    title: string,
    activityType: string,
    location: string,
    address: string,
    coordinates: LngLat,
    time: string,
    date: string,
    participants: nat,
    maxParticipants: nat,
    difficulty: Difficulty,
    organizer: Organizer,
    description: string,
    tags: seq<string>,
    price: nat,
    category: Category,
    duration: nat,
    isJoined: bool,
    isHosted: bool)

  datatype Tab = All | Joined | Hosting

  predicate IsJoined(a: Activity) { a.isJoined }

  predicate IsHosted(a: Activity) { a.isHosted }

  /** Whether the activity belongs on the given tab. */
  predicate OnTab(tab: Tab, a: Activity) {
    match tab
    case All => true
    case Joined => a.isJoined
    case Hosting => a.isHosted
  }

  /** `getActivitiesByTab`. */
  function ByTab(acts: seq<Activity>, tab: Tab): (r: seq<Activity>)
    ensures tab == All ==> r == acts
    ensures forall a :: a in r <==> a in acts && OnTab(tab, a)
    ensures forall a :: multiset(r)[a] == if OnTab(tab, a) then multiset(acts)[a] else 0
    ensures Seqs.SubseqOf(r, acts)
  {
    match tab
    case All => Seqs.SubseqRefl(acts); acts
    case Joined =>
      var r := Seqs.Filter(acts, IsJoined);
      Seqs.FilterMultiplicity(acts, IsJoined);
      forall a ensures a in r <==> a in acts && a.isJoined {
        Seqs.FilterMembership(acts, IsJoined, a);
      }
      r
    case Hosting =>
      var r := Seqs.Filter(acts, IsHosted);
      Seqs.FilterMultiplicity(acts, IsHosted);
      forall a ensures a in r <==> a in acts && a.isHosted {
        Seqs.FilterMembership(acts, IsHosted, a);
      }
      r
  }

  /** The search box predicate: the query in the title, type, location or
      organizer name, ignoring case. Description, address and tags are not
      searched. */
  predicate MatchesSearch(a: Activity, query: string) {
    || Includes(a.title, query)
    || Includes(a.activityType, query)
    || Includes(a.location, query)
    || Includes(a.organizer.name, query)
  }

  /** One chip against one activity: the chip is contained, ignoring case,
      in some tag, the difficulty, the category or the type. */
  predicate ChipMatches(a: Activity, chip: string) {
    || (exists t :: t in a.tags && Includes(t, chip))
    || Includes(DifficultyName(a.difficulty), chip)
    || Includes(CategoryName(a.category), chip)
    || Includes(a.activityType, chip)
  }

  /** The chip predicate: no chips, or at least one matching chip. */
  predicate MatchesFilters(a: Activity, chips: seq<string>) {
    |chips| == 0 || exists c :: c in chips && ChipMatches(a, c)
  }

  predicate Keep(query: string, chips: seq<string>, a: Activity) {
    MatchesSearch(a, query) && MatchesFilters(a, chips)
  }

  /** `filteredActivities`: the tab's list, narrowed by search and chips. */
  function VisibleActivities(acts: seq<Activity>, query: string, chips: seq<string>, tab: Tab): (r: seq<Activity>)
    ensures Seqs.SubseqOf(r, acts)
    ensures forall a :: a in r <==>
      a in acts && OnTab(tab, a) && MatchesSearch(a, query) && MatchesFilters(a, chips)
    ensures forall a :: multiset(r)[a] ==
                        if OnTab(tab, a) && MatchesSearch(a, query) && MatchesFilters(a, chips)
                        then multiset(acts)[a] else 0
  {
    var byTab := ByTab(acts, tab);
    var keep := a => Keep(query, chips, a);
    var r := Seqs.Filter(byTab, keep);
    Seqs.FilterMultiplicity(byTab, keep);
    Seqs.SubseqTrans(r, byTab, acts);
    forall a ensures a in r <==> a in byTab && Keep(query, chips, a) {
      Seqs.FilterMembership(byTab, keep, a);
    }
    r
  }

  /** With an empty query, no chips and the "all" tab, every activity is listed. */
  lemma NoConstraintsShowsAll(acts: seq<Activity>)
    ensures VisibleActivities(acts, "", [], All) == acts
  {
    NoSearchShowsTab(acts, All);
  }

  /** An empty query excludes nothing: only the tab and the chips decide. */
  lemma EmptyQueryMatchesAll(a: Activity)
    ensures MatchesSearch(a, "")
  {
    IncludesEmpty(a.title);
  }

  /** The chips are combined with OR: adding a chip never hides an activity
      that a non-empty chip list already showed. */
  lemma MoreChipsWiden(a: Activity, chips: seq<string>, extra: string)
    requires |chips| > 0 && MatchesFilters(a, chips)
    ensures MatchesFilters(a, chips + [extra])
  {
    var c :| c in chips && ChipMatches(a, c);
    assert c in chips + [extra];
  }

  /** A chip longer than every tag, the difficulty, the category and the type
      matches nothing, because containment runs field-contains-chip. */
  lemma LongChipMatchesNothing(a: Activity, chip: string)
    requires forall t :: t in a.tags ==> |t| < |chip|
    requires |DifficultyName(a.difficulty)| < |chip|
    requires |CategoryName(a.category)| < |chip|
    requires |a.activityType| < |chip|
    ensures !ChipMatches(a, chip)
    ensures !MatchesFilters(a, [chip])
  {
    forall t | t in a.tags ensures !Includes(t, chip) {
      IncludesTooLong(t, chip);
    }
    IncludesTooLong(DifficultyName(a.difficulty), chip);
    IncludesTooLong(CategoryName(a.category), chip);
    IncludesTooLong(a.activityType, chip);
  }

  /** One record under `handleJoinActivity` as written: `isJoined` is
      negated and `participants` grows by one, whichever way the flag goes. */
  function JoinAsWritten(a: Activity): (r: Activity)
    ensures r.isJoined == !a.isJoined
    ensures r.participants == a.participants + 1
    ensures r.(participants := a.participants, isJoined := a.isJoined) == a
  {
    a.(participants := a.participants + 1, isJoined := !a.isJoined)
  }

  /** `handleJoinActivity`: the records with the given id are toggled, every
      other record is left as it was. */
  function ToggleJoin(acts: seq<Activity>, id: string): (r: seq<Activity>)
    ensures |r| == |acts|
    ensures forall i :: 0 <= i < |acts| && acts[i].id != id ==> r[i] == acts[i]
    ensures forall i :: 0 <= i < |acts| && acts[i].id == id ==>
      && r[i].isJoined == !acts[i].isJoined
      && r[i].participants == acts[i].participants + 1
      && r[i].(participants := acts[i].participants, isJoined := acts[i].isJoined) == acts[i]
    decreases |acts|
  {
    if |acts| == 0 then []
    else
      var a := acts[0];
      [if a.id == id then JoinAsWritten(a) else a] + ToggleJoin(acts[1..], id)
  }

  /** Joining with an id that no record has leaves the list unchanged. */
  lemma ToggleJoinUnknownId(acts: seq<Activity>, id: string)
    requires forall a :: a in acts ==> a.id != id
    ensures ToggleJoin(acts, id) == acts
  {
  }

  /** Pressing the button twice restores `isJoined` but leaves two extra
      participants behind: leaving does not give the place back. */
  lemma ToggleJoinTwiceDrifts(acts: seq<Activity>, id: string, i: int)
    requires 0 <= i < |acts| && acts[i].id == id
    ensures ToggleJoin(ToggleJoin(acts, id), id)[i].isJoined == acts[i].isJoined
    ensures ToggleJoin(ToggleJoin(acts, id), id)[i].participants == acts[i].participants + 2
  {
  }

  /** One record under the join toggle as evidently intended: joining adds a
      participant and leaving removes one, never going below zero. */
  function JoinIntended(a: Activity): (r: Activity)
    ensures r.isJoined == !a.isJoined
    ensures !a.isJoined ==> r.participants == a.participants + 1
    ensures a.isJoined ==> r.participants + 1 == a.participants || r.participants == a.participants == 0
    ensures r.(participants := a.participants, isJoined := a.isJoined) == a
  {
    if a.isJoined then
      a.(participants := if a.participants > 0 then a.participants - 1 else a.participants, isJoined := false)
    else
      a.(participants := a.participants + 1, isJoined := true)
  }

  /** For one record whose joined viewer is counted, the intended toggle
      undoes itself. */
  lemma JoinIntendedInvolutive(a: Activity)
    requires a.isJoined ==> a.participants >= 1
    ensures JoinIntended(JoinIntended(a)) == a
  {
    var once := JoinIntended(a);
    if a.isJoined {
      assert once == a.(participants := a.participants - 1, isJoined := false);
      assert JoinIntended(once) == once.(participants := a.participants, isJoined := true);
    } else {
      assert once == a.(participants := a.participants + 1, isJoined := true);
      assert JoinIntended(once) == once.(participants := a.participants, isJoined := false);
    }
  }

  /** The join toggle as evidently intended, over the whole list. */
  function ToggleJoinIntended(acts: seq<Activity>, id: string): (r: seq<Activity>)
    ensures |r| == |acts|
    ensures forall i :: 0 <= i < |acts| && acts[i].id != id ==> r[i] == acts[i]
    ensures forall i :: 0 <= i < |acts| && acts[i].id == id ==>
      && r[i].isJoined == !acts[i].isJoined
      && r[i].(participants := acts[i].participants, isJoined := acts[i].isJoined) == acts[i]
      && (!acts[i].isJoined ==> r[i].participants == acts[i].participants + 1)
      && (acts[i].isJoined && acts[i].participants > 0 ==> r[i].participants == acts[i].participants - 1)
      && (acts[i].isJoined && acts[i].participants == 0 ==> r[i].participants == 0)
    decreases |acts|
  {
    if |acts| == 0 then []
    else
      var a := acts[0];
      [if a.id == id then JoinIntended(a) else a] + ToggleJoinIntended(acts[1..], id)
  }

  /** A viewer who has joined is counted among the participants. */
  predicate JoinCounted(acts: seq<Activity>) {
    forall a :: a in acts && a.isJoined ==> a.participants >= 1
  }

  /** With the intended toggle, pressing the button twice restores every
      record exactly. */
  lemma {:induction false} ToggleJoinIntendedTwiceRestores(acts: seq<Activity>, id: string)
    requires JoinCounted(acts)
    ensures ToggleJoinIntended(ToggleJoinIntended(acts, id), id) == acts
    decreases |acts|
  {
    if |acts| > 0 {
      var a := acts[0];
      assert acts == [a] + acts[1..];
      var once := ToggleJoinIntended(acts, id);
      assert once[1..] == ToggleJoinIntended(acts[1..], id);
      ToggleJoinIntendedTwiceRestores(acts[1..], id);
      if a.id == id {
        assert a in acts;
        JoinIntendedInvolutive(a);
      }
    }
  }

  datatype TabCounts = TabCounts(all: nat, joined: nat, hosting: nat)

  /** `getTabCounts`. */
  function GetTabCounts(acts: seq<Activity>): (r: TabCounts)
    ensures r.all == |acts|
    ensures r.joined == |set i | 0 <= i < |acts| && acts[i].isJoined|
    ensures r.hosting == |set i | 0 <= i < |acts| && acts[i].isHosted|
    ensures r.joined <= r.all && r.hosting <= r.all
  {
    Seqs.FilterCount(acts, IsJoined);
    Seqs.FilterCount(acts, IsHosted);
    FlagPositions(acts);
    TabCounts(|acts|, |Seqs.Filter(acts, IsJoined)|, |Seqs.Filter(acts, IsHosted)|)
  }

  /** The positions the tab filters pick are the positions of the flag. */
  lemma FlagPositions(acts: seq<Activity>)
    ensures Seqs.Positions(acts, IsJoined) == set i | 0 <= i < |acts| && acts[i].isJoined
    ensures Seqs.Positions(acts, IsHosted) == set i | 0 <= i < |acts| && acts[i].isHosted
  {
    forall i ensures i in Seqs.Positions(acts, IsJoined) <==> 0 <= i < |acts| && acts[i].isJoined {
    }
    forall i ensures i in Seqs.Positions(acts, IsHosted) <==> 0 <= i < |acts| && acts[i].isHosted {
    }
  }

  /** With no query and no chips, the list is exactly the tab's list. */
  lemma NoSearchShowsTab(acts: seq<Activity>, tab: Tab)
    ensures VisibleActivities(acts, "", [], tab) == ByTab(acts, tab)
  {
    var b := ByTab(acts, tab);
    forall i | 0 <= i < |b| ensures Keep("", [], b[i]) {
      IncludesEmpty(b[i].title);
    }
  }

  /** The counter shown on a tab. */
  function CountOn(c: TabCounts, tab: Tab): nat {
    match tab
    case All => c.all
    case Joined => c.joined
    case Hosting => c.hosting
  }

  /** Each counter equals the number of cards its tab shows before any
      search or chip is applied. */
  lemma TabCountsMatchTabs(acts: seq<Activity>, tab: Tab)
    ensures CountOn(GetTabCounts(acts), tab) == |VisibleActivities(acts, "", [], tab)|
  {
    NoSearchShowsTab(acts, tab);
  }

  /** `getDifficultyColor` of the list cards. */
  function DifficultyTextColor(difficulty: string): (r: string)
    ensures r == "text-green-400" <==> difficulty == "Beginner"
    ensures r == "text-yellow-400" <==> difficulty == "Intermediate"
    ensures r == "text-red-400" <==> difficulty == "Advanced"
    ensures difficulty !in {"Beginner", "Intermediate", "Advanced"} <==> r == "text-white"
  {
    match difficulty
    case "Beginner" => "text-green-400"
    case "Intermediate" => "text-yellow-400"
    case "Advanced" => "text-red-400"
    case _ => "text-white"
  }

  /** `getCategoryColor`. */
  function CategoryColor(category: string): (r: string)
    ensures r == "bg-green-500/20 text-green-400" <==> category == "outdoor"
    ensures r == "bg-blue-500/20 text-blue-400" <==> category == "indoor"
    ensures r == "bg-cyan-500/20 text-cyan-400" <==> category == "water"
    ensures r == "bg-purple-500/20 text-purple-400" <==> category == "group"
    ensures category !in {"outdoor", "indoor", "water", "group"} <==> r == "bg-gray-500/20 text-gray-400"
  {
    match category
    case "outdoor" => "bg-green-500/20 text-green-400"
    case "indoor" => "bg-blue-500/20 text-blue-400"
    case "water" => "bg-cyan-500/20 text-cyan-400"
    case "group" => "bg-purple-500/20 text-purple-400"
    case _ => "bg-gray-500/20 text-gray-400"
  }

  /** Every category and difficulty the records can carry gets its own
      colour, never the fallback. */
  lemma KnownValuesAreColoured(c: Category, d: Difficulty)
    ensures CategoryColor(CategoryName(c)) != "bg-gray-500/20 text-gray-400"
    ensures DifficultyTextColor(DifficultyName(d)) != "text-white"
  {
  }

  /** The icon components of the list cards. */
  datatype CardIcon = TreePine | Dumbbell | Bike | Waves | ActivityIcon | UsersIcon

  const KnownCardTypes: set<string> :=
    {"yoga", "hiit", "cycling", "swimming", "running", "dance", "martial arts", "rock climbing"}

  /** `getActivityIcon` of the list cards: chosen by the lower-cased type. */
  function CardIconFor(activityType: string): (r: CardIcon)
    ensures ToLower(activityType) !in KnownCardTypes ==> r == ActivityIcon
    ensures r == TreePine <==> ToLower(activityType) == "yoga"
    ensures r == Dumbbell <==> ToLower(activityType) in {"hiit", "martial arts"}
    ensures r == Bike <==> ToLower(activityType) == "cycling"
    ensures r == Waves <==> ToLower(activityType) == "swimming"
    ensures r == UsersIcon <==> ToLower(activityType) == "dance"
    ensures r == ActivityIcon <==>
      ToLower(activityType) in {"running", "rock climbing"} || ToLower(activityType) !in KnownCardTypes
  {
    match ToLower(activityType)
    case "yoga" => TreePine
    case "hiit" => Dumbbell
    case "cycling" => Bike
    case "swimming" => Waves
    case "running" => ActivityIcon
    case "dance" => UsersIcon
    case "martial arts" => Dumbbell
    case "rock climbing" => ActivityIcon
    case _ => ActivityIcon
  }

  /** The icon lookup ignores case. */
  lemma CardIconIgnoresCase(activityType: string)
    ensures CardIconFor(ToLower(activityType)) == CardIconFor(activityType)
  {
    ToLowerIdempotent(activityType);
  }
}

=== FILE: activity_map.dfy ===
/** The activity map (components/ui/mapbox-activity-map.tsx), with the map
    library reduced to what the component asks of it: a collection of
    markers on the map and a log of camera commands. Marker styling,
    popups and the library itself are not modelled. */
module ActivityMap {
  import opened Options
  import opened Text
  import ActivitiesPage

  type LngLat = ActivitiesPage.LngLat
  type Activity = ActivitiesPage.Activity

  /** `getDifficultyColor`: the marker colour for a difficulty. */
  function DifficultyHex(difficulty: string): (r: string)
    ensures difficulty == "Beginner" <==> r == "#10b981"
    ensures difficulty == "Intermediate" <==> r == "#f59e0b"
    ensures difficulty == "Advanced" <==> r == "#ef4444"
    ensures r == "#6b7280" <==>
      difficulty != "Beginner" && difficulty != "Intermediate" && difficulty != "Advanced"
  {
    if difficulty == "Beginner" then "#10b981"
    else if difficulty == "Intermediate" then "#f59e0b"
    else if difficulty == "Advanced" then "#ef4444"
    else "#6b7280"
  }

  /** Every difficulty the activity records can carry gets its own colour,
      never the grey fallback. */
  lemma KnownDifficultiesAreColoured(d: ActivitiesPage.Difficulty)
    ensures DifficultyHex(ActivitiesPage.DifficultyName(d)) != "#6b7280"
  {
  }

  /** The marker glyphs. */
  datatype Glyph = Meditating | Flexing | Cycling | Swimming | Running | Dancing | MartialArts | Climbing

  /** `getActivityIcon`: looked up on the lower-cased type, among the same
      eight types as the list cards' icons, the running glyph for anything
      unknown. */
  function GlyphFor(activityType: string): (r: Glyph)
    ensures ToLower(activityType) !in ActivitiesPage.KnownCardTypes ==> r == Running
    ensures r == Running <==> ToLower(activityType) == "running" || ToLower(activityType) !in ActivitiesPage.KnownCardTypes
    ensures r == Meditating <==> ToLower(activityType) == "yoga"
    ensures r == Flexing <==> ToLower(activityType) == "hiit"
    ensures r == Cycling <==> ToLower(activityType) == "cycling"
    ensures r == Swimming <==> ToLower(activityType) == "swimming"
    ensures r == Dancing <==> ToLower(activityType) == "dance"
    ensures r == MartialArts <==> ToLower(activityType) == "martial arts"
    ensures r == Climbing <==> ToLower(activityType) == "rock climbing"
  {
    var t := ToLower(activityType);
    if t == "yoga" then Meditating
    else if t == "hiit" then Flexing
    else if t == "cycling" then Cycling
    else if t == "swimming" then Swimming
    else if t == "running" then Running
    else if t == "dance" then Dancing
    else if t == "martial arts" then MartialArts
    else if t == "rock climbing" then Climbing
    else Running
  }

  /** The lookup ignores case: a type and its lower-cased form get the
      same glyph. */
  lemma GlyphIgnoresCase(activityType: string)
    ensures GlyphFor(ToLower(activityType)) == GlyphFor(activityType)
  {
    ToLowerIdempotent(activityType);
  }

  /** A marker on the map: one per activity, or the user's position. The
      handle tells apart the marker objects the component creates: two
      markers for the same activity are still two objects. */
  datatype Pin = ActivityPin(handle: nat, activity: Activity) | UserPin(handle: nat, at: LngLat)

  /** The map and the list cards agree on which difficulties are known:
      the marker colour falls back to grey exactly when the card's text
      colour falls back to white. */
  lemma DifficultyFallbacksAgree(difficulty: string)
    ensures DifficultyHex(difficulty) == "#6b7280" <==>
      ActivitiesPage.DifficultyTextColor(difficulty) == "text-white"
  {
  }

  /** A box given by its south-west and north-east corners. */
  datatype Bounds = Bounds(minLng: int, minLat: int, maxLng: int, maxLat: int)

  /** The camera commands the component issues. */
  datatype CameraCommand =
    | FlyTo(center: LngLat, zoom: nat, duration: Option<nat>)
    | FitBounds(bounds: Bounds, padding: nat, fitDuration: nat)

  /** The component's view of the map. `ready` stands for both the map and
      the library being loaded; `onMap` is what the map displays;
      `markers` and `userMarker` are the component's own records of the
      markers it added; `nextHandle` is the handle the next new marker
      gets; `selections` logs the calls of the parent's selection
      handler. */
  datatype MapState = MapState(
    ready: bool,
    onMap: multiset<Pin>,
    markers: seq<Pin>,
    userMarker: Option<Pin>,
    nextHandle: nat,
    camera: seq<CameraCommand>,
    selections: seq<Activity>)

  function UserPart(u: Option<Pin>): multiset<Pin> {
    match u
    case None => multiset{}
    case Some(p) => multiset{p}
  }

  /** The map shows exactly the markers the component recorded: activity
      pins in `markers`, a user pin in `userMarker`, and every handle shown
      was handed out before. */
  predicate Wf(st: MapState) {
    && (forall i :: 0 <= i < |st.markers| ==> st.markers[i].ActivityPin?)
    && (st.userMarker.Some? ==> st.userMarker.value.UserPin?)
    && st.onMap == multiset(st.markers) + UserPart(st.userMarker)
    && (forall p :: p in st.onMap ==> p.handle < st.nextHandle)
  }

  const InitialMap := MapState(false, multiset{}, [], None, 0, [], [])

  /** The map once loaded, with nothing added yet. */
  function Loaded(st: MapState): (r: MapState)
    ensures Wf(st) ==> Wf(r)
    ensures r.ready && r.onMap == st.onMap
  {
    st.(ready := true)
  }

  /** New activity markers, one per activity in list order, with the
      handles from `base` on. */
  function PinsFor(acts: seq<Activity>, base: nat): (r: seq<Pin>)
    ensures |r| == |acts|
    ensures forall i :: 0 <= i < |r| ==> r[i] == ActivityPin(base + i, acts[i])
  {
    seq(|acts|, i requires 0 <= i < |acts| => ActivityPin(base + i, acts[i]))
  }

  /** `updateMarkers`: when the map is ready, remove every recorded
      activity marker and create a new one per activity, in list order. A
      full rebuild, even for activities whose marker was already there. */
  function UpdateMarkers(st: MapState, acts: seq<Activity>): (r: MapState)
    ensures !st.ready ==> r == st
    ensures st.ready ==> r.markers == PinsFor(acts, st.nextHandle) && r.nextHandle == st.nextHandle + |acts|
    ensures st.ready ==> r.onMap == st.onMap - multiset(st.markers) + multiset(r.markers)
    ensures r.ready == st.ready && r.userMarker == st.userMarker
    ensures r.camera == st.camera && r.selections == st.selections
  {
    if !st.ready then st
    else
      var pins := PinsFor(acts, st.nextHandle);
      st.(onMap := st.onMap - multiset(st.markers) + multiset(pins), markers := pins,
          nextHandle := st.nextHandle + |acts|)
  }

  /** After an update the map shows one new marker per activity, in list
      order, and the user marker it had. Every old activity marker is gone
      from the map, and every new one is a marker the map did not show
      before: a rebuild, not a diff. */
  lemma UpdateMarkersKeepsWf(st: MapState, acts: seq<Activity>)
    requires Wf(st)
    ensures Wf(UpdateMarkers(st, acts))
    ensures st.ready ==> var r := UpdateMarkers(st, acts);
      && r.onMap == multiset(r.markers) + UserPart(st.userMarker)
      && |r.markers| == |acts|
      && (forall i :: 0 <= i < |acts| ==> r.markers[i].ActivityPin? && r.markers[i].activity == acts[i])
      && (forall p :: p in st.markers ==> p !in r.onMap)
      && (forall p :: p in r.markers ==> p !in st.onMap)
  {
    if st.ready {
      var r := UpdateMarkers(st, acts);
      var pins := r.markers;
      NewPinsAreFresh(st, acts);
      assert st.onMap - multiset(st.markers) == UserPart(st.userMarker);
      assert r.onMap == UserPart(st.userMarker) + multiset(pins);
      OldPinsAreGone(st, r);
    }
  }

  /** The pins of an update carry handles not handed out before. */
  lemma NewPinsAreFresh(st: MapState, acts: seq<Activity>)
    requires Wf(st)
    ensures forall p :: p in PinsFor(acts, st.nextHandle) ==>
      p !in st.onMap && st.nextHandle <= p.handle < st.nextHandle + |acts|
  {
    var pins := PinsFor(acts, st.nextHandle);
    forall p | p in pins ensures p !in st.onMap && st.nextHandle <= p.handle < st.nextHandle + |acts| {
      var i :| 0 <= i < |pins| && pins[i] == p;
    }
  }

  /** Once the recorded markers are replaced by fresh ones, none of the old
      ones is shown, and every handle shown was handed out. */
  lemma OldPinsAreGone(st: MapState, r: MapState)
    requires Wf(st)
    requires st.nextHandle <= r.nextHandle
    requires r.onMap == UserPart(st.userMarker) + multiset(r.markers)
    requires forall p :: p in r.markers ==> p !in st.onMap && p.handle < r.nextHandle
    ensures forall p :: p in st.markers ==> p !in r.onMap
    ensures forall p :: p in r.onMap ==> p.handle < r.nextHandle
  {
    forall p | p in st.markers ensures p !in r.onMap {
      assert p in st.onMap;
    }
    forall p | p in r.onMap ensures p.handle < r.nextHandle {
      if p !in r.markers {
        assert p in st.onMap;
      }
    }
  }

  /** A second update with the same list shows the same activities in the
      same order, through new markers: none of the first update's markers
      survives it. */
  lemma UpdateMarkersTwiceRebuilds(st: MapState, acts: seq<Activity>)
    requires Wf(st) && st.ready
    ensures var once := UpdateMarkers(st, acts);
      var twice := UpdateMarkers(once, acts);
      && |twice.markers| == |once.markers| == |acts|
      && (forall i :: 0 <= i < |acts| ==> twice.markers[i].activity == once.markers[i].activity == acts[i])
      && (forall p :: p in once.markers ==> p !in twice.onMap)
      && (|acts| > 0 ==> twice.markers != once.markers)
  {
    var once := UpdateMarkers(st, acts);
    UpdateMarkersKeepsWf(st, acts);
    UpdateMarkersKeepsWf(once, acts);
    var twice := UpdateMarkers(once, acts);
    if |acts| > 0 {
      assert twice.markers[0].handle != once.markers[0].handle;
    }
  }

  /** `updateUserMarker`: with the map ready and a known position, remove
      the recorded user marker, if any, and create one at the position. */
  function UpdateUserMarker(st: MapState, userLocation: Option<LngLat>): (r: MapState)
    ensures !st.ready || userLocation.None? ==> r == st
    ensures st.ready && userLocation.Some? ==>
      && r.userMarker == Some(UserPin(st.nextHandle, userLocation.value))
      && r.nextHandle == st.nextHandle + 1
      && r.onMap == st.onMap - UserPart(st.userMarker) + UserPart(r.userMarker)
    ensures r.ready == st.ready && r.markers == st.markers
    ensures r.camera == st.camera && r.selections == st.selections
  {
    if !st.ready || userLocation.None? then st
    else
      var pin := UserPin(st.nextHandle, userLocation.value);
      st.(onMap := st.onMap - UserPart(st.userMarker) + multiset{pin}, userMarker := Some(pin),
          nextHandle := st.nextHandle + 1)
  }

  /** Moving the user marker keeps the map well formed, and the old user
      marker is gone from the map. */
  lemma UpdateUserMarkerKeepsWf(st: MapState, userLocation: Option<LngLat>)
    requires Wf(st)
    ensures Wf(UpdateUserMarker(st, userLocation))
    ensures st.ready && userLocation.Some? && st.userMarker.Some? ==>
      st.userMarker.value !in UpdateUserMarker(st, userLocation).onMap
  {
    if st.ready && userLocation.Some? {
      var r := UpdateUserMarker(st, userLocation);
      assert st.onMap - UserPart(st.userMarker) == multiset(st.markers);
      assert r.onMap == multiset(st.markers) + UserPart(r.userMarker);
      if st.userMarker.Some? {
        var prev := st.userMarker.value;
        assert prev in st.onMap;
        assert prev !in multiset(st.markers) by {
          assert forall i :: 0 <= i < |st.markers| ==> st.markers[i] != prev;
        }
      }
      forall p | p in r.onMap ensures p.handle < r.nextHandle {
        if p in multiset(st.markers) {
          assert p in st.onMap;
        }
      }
    }
  }

  /** In a well-formed map the user marker is the only user pin, shown once. */
  lemma AtMostOneUserPin(st: MapState, p: Pin)
    requires Wf(st)
    requires p.UserPin? && p in st.onMap
    ensures st.userMarker == Some(p)
    ensures st.onMap[p] == 1
  {
    assert forall i :: 0 <= i < |st.markers| ==> st.markers[i] != p;
    assert p !in multiset(st.markers);
  }

  /** A click on the `k`-th activity marker: the parent's handler, if
      given, receives its activity, and the camera flies to it. */
  function MarkerClick(st: MapState, k: int, hasHandler: bool): (r: MapState)
    requires 0 <= k < |st.markers| && st.markers[k].ActivityPin?
    ensures |r.camera| == |st.camera| + 1 && r.camera[..|st.camera|] == st.camera
    ensures r.camera[|st.camera|] == FlyTo(st.markers[k].activity.coordinates, 15, Some(1000))
    ensures hasHandler ==> r.selections == st.selections + [st.markers[k].activity]
    ensures !hasHandler ==> r.selections == st.selections
    ensures r == st.(camera := r.camera, selections := r.selections)
  {
    var a := st.markers[k].activity;
    st.(camera := st.camera + [FlyTo(a.coordinates, 15, Some(1000))],
        selections := if hasHandler then st.selections + [a] else st.selections)
  }

  /** Clicking the marker built for an activity reports that very activity. */
  lemma ClickReportsItsActivity(st: MapState, acts: seq<Activity>, k: int)
    requires st.ready && 0 <= k < |acts|
    ensures var u := UpdateMarkers(st, acts);
      MarkerClick(u, k, true).selections == st.selections + [acts[k]]
  {
  }

  /** `flyToActivity`, the "View Details" button: a closer view of the
      selected activity, when the map is there. */
  function ViewDetails(st: MapState, selected: Activity): (r: MapState)
    ensures !st.ready ==> r == st
    ensures st.ready ==> r.camera == st.camera + [FlyTo(selected.coordinates, 16, Some(1500))]
    ensures r == st.(camera := r.camera)
  {
    if st.ready then st.(camera := st.camera + [FlyTo(selected.coordinates, 16, Some(1500))]) else st
  }

  /** The "My Location" button, shown only when the position is known. */
  function MyLocation(st: MapState, userLocation: LngLat): (r: MapState)
    ensures !st.ready ==> r == st
    ensures st.ready ==> r.camera == st.camera + [FlyTo(userLocation, 14, None)]
    ensures r == st.(camera := r.camera)
  {
    if st.ready then st.(camera := st.camera + [FlyTo(userLocation, 14, None)]) else st
  }

  predicate InBounds(b: Bounds, p: LngLat) {
    b.minLng <= p.lng <= b.maxLng && b.minLat <= p.lat <= b.maxLat
  }

  /** Each side of the box touches one of the points. */
  predicate Tight(b: Bounds, pts: seq<LngLat>) {
    && (exists i :: 0 <= i < |pts| && pts[i].lng == b.minLng)
    && (exists i :: 0 <= i < |pts| && pts[i].lng == b.maxLng)
    && (exists i :: 0 <= i < |pts| && pts[i].lat == b.minLat)
    && (exists i :: 0 <= i < |pts| && pts[i].lat == b.maxLat)
  }

  /** The box an empty bounds object grows to when it is extended by each
      point in turn. */
  function BoundsOf(pts: seq<LngLat>): (b: Bounds)
    requires |pts| > 0
    ensures forall i :: 0 <= i < |pts| ==> InBounds(b, pts[i])
    ensures Tight(b, pts)
    decreases |pts|
  {
    var p := pts[|pts| - 1];
    if |pts| == 1 then Bounds(p.lng, p.lat, p.lng, p.lat)
    else
      var b0 := BoundsOf(pts[..|pts| - 1]);
      var b := Bounds(
        if p.lng < b0.minLng then p.lng else b0.minLng,
        if p.lat < b0.minLat then p.lat else b0.minLat,
        if p.lng > b0.maxLng then p.lng else b0.maxLng,
        if p.lat > b0.maxLat then p.lat else b0.maxLat);
      assert forall i :: 0 <= i < |pts| - 1 ==> pts[..|pts| - 1][i] == pts[i];
      b
  }

  /** The smallest box around the points: any box holding all of them
      holds this one. */
  lemma BoundsOfIsSmallest(pts: seq<LngLat>, c: Bounds)
    requires |pts| > 0
    requires forall i :: 0 <= i < |pts| ==> InBounds(c, pts[i])
    ensures var b := BoundsOf(pts);
      c.minLng <= b.minLng && c.minLat <= b.minLat && b.maxLng <= c.maxLng && b.maxLat <= c.maxLat
  {
    var b := BoundsOf(pts);
    assert Tight(b, pts);
    var i1 :| 0 <= i1 < |pts| && pts[i1].lng == b.minLng;
    var i2 :| 0 <= i2 < |pts| && pts[i2].lng == b.maxLng;
    var i3 :| 0 <= i3 < |pts| && pts[i3].lat == b.minLat;
    var i4 :| 0 <= i4 < |pts| && pts[i4].lat == b.maxLat;
    assert InBounds(c, pts[i1]) && InBounds(c, pts[i2]) && InBounds(c, pts[i3]) && InBounds(c, pts[i4]);
  }

  /** The points "Show All" frames: every activity, then the user. */
  function FramedPoints(acts: seq<Activity>, userLocation: Option<LngLat>): (pts: seq<LngLat>)
    ensures |pts| == |acts| + (if userLocation.Some? then 1 else 0)
    ensures forall i :: 0 <= i < |acts| ==> pts[i] == acts[i].coordinates
    ensures userLocation.Some? ==> pts[|acts|] == userLocation.value
  {
    seq(|acts|, i requires 0 <= i < |acts| => acts[i].coordinates)
      + (match userLocation case Some(u) => [u] case None => [])
  }

  /** `fitAllActivities`: nothing without a map or without activities;
      otherwise fit the smallest box around every activity and the user,
      with padding 50 over 1000 ms. */
  function FitAll(st: MapState, acts: seq<Activity>, userLocation: Option<LngLat>): (r: MapState)
    ensures !st.ready || |acts| == 0 ==> r == st
    ensures st.ready && |acts| > 0 ==>
      && |r.camera| == |st.camera| + 1
      && r.camera[..|st.camera|] == st.camera
      && r.camera[|st.camera|].FitBounds?
      && r.camera[|st.camera|].padding == 50
      && r.camera[|st.camera|].fitDuration == 1000
      && (forall a :: a in acts ==> InBounds(r.camera[|st.camera|].bounds, a.coordinates))
      && (userLocation.Some? ==> InBounds(r.camera[|st.camera|].bounds, userLocation.value))
      && Tight(r.camera[|st.camera|].bounds, FramedPoints(acts, userLocation))
    ensures r == st.(camera := r.camera)
  {
    if !st.ready || |acts| == 0 then st
    else
      var pts := FramedPoints(acts, userLocation);
      var b := BoundsOf(pts);
      assert forall a :: a in acts ==> InBounds(b, a.coordinates) by {
        forall a | a in acts ensures InBounds(b, a.coordinates) {
          var i :| 0 <= i < |acts| && acts[i] == a;
          assert pts[i] == a.coordinates;
        }
      }
      st.(camera := st.camera + [FitBounds(b, 50, 1000)])
  }

  /** The camera operations never touch the markers, so they keep the map
      well formed. */
  lemma CameraKeepsWf(st: MapState, acts: seq<Activity>, user: LngLat, u: Option<LngLat>, a: Activity, k: int, h: bool)
    requires Wf(st)
    ensures Wf(ViewDetails(st, a)) && Wf(MyLocation(st, user)) && Wf(FitAll(st, acts, u))
    ensures 0 <= k < |st.markers| ==> Wf(MarkerClick(st, k, h))
  {
  }
}

=== FILE: explore.dfy ===
/** The explore page (app/explore/page.tsx): one query narrows both the
    activity list and the people list; the chips collected by the search
    box are stored but never applied. */
module ExplorePage {
  import Seqs
  import opened Text

  /** The fields of an explore-page activity that the page's logic reads. */
  datatype ExploreActivity = ExploreActivity(
    id: string, title: string, activityType: string, location: string,
    organizerName: string, difficulty: string, tags: seq<string>)

  /** The fields of a `FitnessUser` that the page's logic reads. */
  datatype Person = Person(id: string, name: string, location: string, interests: seq<string>)

  /** Title, type or location contain the query, ignoring case. The
      organizer is not searched on this page. */
  predicate ActivityMatches(a: ExploreActivity, query: string) {
    Includes(a.title, query) || Includes(a.activityType, query) || Includes(a.location, query)
  }

  /** The name or some interest contains the query, ignoring case. */
  predicate PersonMatches(p: Person, query: string) {
    Includes(p.name, query) || exists i :: i in p.interests && Includes(i, query)
  }

  /** `filteredActivities`. */
  function FilteredActivities(acts: seq<ExploreActivity>, query: string): (r: seq<ExploreActivity>)
    ensures Seqs.SubseqOf(r, acts)
    ensures forall a :: a in r <==> a in acts && ActivityMatches(a, query)
    ensures forall a :: multiset(r)[a] == if ActivityMatches(a, query) then multiset(acts)[a] else 0
    ensures query == "" ==> r == acts
  {
    var m := a => ActivityMatches(a, query);
    Seqs.FilterMultiplicity(acts, m);
    forall a ensures a in Seqs.Filter(acts, m) <==> a in acts && ActivityMatches(a, query) {
      Seqs.FilterMembership(acts, m, a);
    }
    forall i | 0 <= i < |acts| && query == "" ensures ActivityMatches(acts[i], query) {
      IncludesEmpty(acts[i].title);
    }
    Seqs.Filter(acts, m)
  }

  /** `filteredPeople`. */
  function FilteredPeople(people: seq<Person>, query: string): (r: seq<Person>)
    ensures Seqs.SubseqOf(r, people)
    ensures forall p :: p in r <==> p in people && PersonMatches(p, query)
    ensures forall p :: multiset(r)[p] == if PersonMatches(p, query) then multiset(people)[p] else 0
    ensures query == "" ==> r == people
  {
    var m := p => PersonMatches(p, query);
    Seqs.FilterMultiplicity(people, m);
    forall p ensures p in Seqs.Filter(people, m) <==> p in people && PersonMatches(p, query) {
      Seqs.FilterMembership(people, m, p);
    }
    forall i | 0 <= i < |people| && query == "" ensures PersonMatches(people[i], query) {
      IncludesEmpty(people[i].name);
    }
    Seqs.Filter(people, m)
  }

  datatype ExploreTab = ActivitiesTab | PeopleTab

  /** The page state: `selectedFilters` is written by the search box and
      read by nothing. */
  datatype ExploreState = ExploreState(
    activeTab: ExploreTab,
    searchQuery: string,
    selectedFilters: seq<string>,
    activities: seq<ExploreActivity>,
    people: seq<Person>)

  /** What the page renders from its state. */
  datatype ExploreView = ExploreView(
    shownActivities: seq<ExploreActivity>,
    shownPeople: seq<Person>,
    activitiesBadge: nat,
    peopleBadge: nat,
    emptyState: bool)

  function Render(st: ExploreState): (v: ExploreView)
    ensures v.activitiesBadge == |v.shownActivities| && v.peopleBadge == |v.shownPeople|
    ensures v.emptyState <==>
      (st.activeTab == ActivitiesTab && |v.shownActivities| == 0) ||
      (st.activeTab == PeopleTab && |v.shownPeople| == 0)
    ensures forall a :: a in v.shownActivities <==> a in st.activities && ActivityMatches(a, st.searchQuery)
    ensures forall p :: p in v.shownPeople <==> p in st.people && PersonMatches(p, st.searchQuery)
  {
    var fa := FilteredActivities(st.activities, st.searchQuery);
    var fp := FilteredPeople(st.people, st.searchQuery);
    ExploreView(fa, fp, |fa|, |fp|,
      (st.activeTab == ActivitiesTab && |fa| == 0) || (st.activeTab == PeopleTab && |fp| == 0))
  }

  /** Chips change nothing that is shown. */
  lemma ChipsAreIgnored(st: ExploreState, chips: seq<string>)
    ensures Render(st.(selectedFilters := chips)) == Render(st)
  {
  }

  /** An empty query shows every activity and every person. */
  lemma EmptyQueryShowsEverything(st: ExploreState)
    requires st.searchQuery == ""
    ensures Render(st).shownActivities == st.activities
    ensures Render(st).shownPeople == st.people
  {
  }

  /** "Clear Search" on the empty state brings back the full list of the tab. */
  lemma ClearSearchLeavesEmptyStateOnlyForEmptyData(st: ExploreState)
    ensures Render(st.(searchQuery := "")).emptyState <==>
      (st.activeTab == ActivitiesTab && |st.activities| == 0) ||
      (st.activeTab == PeopleTab && |st.people| == 0)
  {
  }
}

=== FILE: header.dfy ===
/** The site header (components/layout/header.tsx): which navigation item
    is highlighted for the current path, and the mobile menu. */
module Header {
  import opened Text

  datatype NavItem = NavItem(name: string, href: string)

  const Navigation: seq<NavItem> := [
    NavItem("Home", "/"),
    NavItem("Activities", "/activities"),
    NavItem("Live Data", "/live-data"),
    NavItem("Documentation", "/documentation"),
    NavItem("Profile", "/profile")
  ]

  /** `isActive`: the home link only on "/" itself, every other link on any
      path that starts with its href. */
  predicate IsActive(pathname: string, href: string)
    ensures IsActive(pathname, href) ==> |href| <= |pathname| && pathname[..|href|] == href
  {
    if href == "/" then pathname == "/" else IsPrefix(href, pathname)
  }

  /** Every navigation link is highlighted on its own page and on every
      page below it, except that the home link does not extend below "/". */
  lemma OwnPageIsActive(k: int, rest: string)
    requires 0 <= k < |Navigation|
    ensures IsActive(Navigation[k].href, Navigation[k].href)
    ensures k > 0 ==> IsActive(Navigation[k].href + rest, Navigation[k].href)
  {
    var href := Navigation[k].href;
    assert (href + rest)[..|href|] == href;
  }

  /** A sub-page keeps its section highlighted. */
  lemma SubPathKeepsSectionActive(rest: string)
    ensures IsActive("/activities" + rest, "/activities")
  {
    assert ("/activities" + rest)[..|"/activities"|] == "/activities";
  }

  /** The home link is highlighted exactly on "/". */
  lemma HomeActiveOnlyAtRoot(pathname: string)
    ensures IsActive(pathname, Navigation[0].href) <==> pathname == "/"
  {
  }

  /** The table's hrefs other than "/" are longer than one character and
      already differ in their second one. */
  lemma HrefsDifferEarly()
    ensures forall k :: 0 < k < |Navigation| ==> |Navigation[k].href| > 1
    ensures forall k, l ::
      (0 < k < |Navigation| && 0 < l < |Navigation| && Navigation[k].href[1] == Navigation[l].href[1]) ==> k == l
  {
  }

  /** For every path, at most one navigation item is highlighted, and on "/"
      it is Home. */
  lemma AtMostOneActive(pathname: string, i: int, j: int)
    requires 0 <= i < |Navigation| && 0 <= j < |Navigation|
    requires IsActive(pathname, Navigation[i].href) && IsActive(pathname, Navigation[j].href)
    ensures i == j
    ensures pathname == "/" ==> i == 0
  {
    HrefsDifferEarly();
    if i != 0 {
      assert pathname[..|Navigation[i].href|] == Navigation[i].href;
      assert pathname[1] == Navigation[i].href[1];
    }
    if j != 0 {
      assert pathname[..|Navigation[j].href|] == Navigation[j].href;
      assert pathname[1] == Navigation[j].href[1];
    }
  }

  /** The mobile menu's open flag. */
  datatype MenuEvent = MenuButton | MobileLinkClick

  function MenuStep(isMenuOpen: bool, ev: MenuEvent): (r: bool)
    ensures ev == MenuButton ==> r != isMenuOpen
    ensures ev == MobileLinkClick ==> !r
  {
    match ev
    case MenuButton => !isMenuOpen
    case MobileLinkClick => false
  }

  /** Two presses of the menu button leave the menu as it was; a link
      click closes it whatever came before. */
  lemma MenuButtonTwice(isMenuOpen: bool)
    ensures MenuStep(MenuStep(isMenuOpen, MenuButton), MenuButton) == isMenuOpen
    ensures MenuStep(MenuStep(isMenuOpen, MenuButton), MobileLinkClick) == MenuStep(isMenuOpen, MobileLinkClick)
  {
  }
}

=== FILE: live_data.dfy ===
/** The live activity feed (app/live-data/page.tsx): clicking a feed entry
    selects it and derives the details panel; the close button; the
    difficulty badge colour and the price label. */
module LiveDataPage {
  import opened Options
  import opened Text

  /** A feed entry; `rating` is in tenths of a star. */
  datatype LiveActivity = LiveActivity(
    id: string,
    title: string,
    activityType: string,
    instructor: string,
    location: string,
    participants: nat,
    maxParticipants: nat,
    price: nat,
    rating: nat,
    difficulty: string,
    startTime: string,
    duration: nat,
    emoji: string,
    isVerified: bool)

  /** The details panel record; `reviews` is not modelled. */
  datatype ActivityDetails = ActivityDetails(
    id: string,
    title: string,
    description: string,
    instructor: string,
    instructorRating: nat,
    location: string,
    address: string,
    participants: nat,
    maxParticipants: nat,
    price: nat,
    rating: nat,
    difficulty: string,
    startTime: string,
    duration: nat,
    nextSession: string,
    amenities: seq<string>)

  const Address := "123 Fitness St, Your Neighborhood"
  const Amenities := ["Parking Available", "Equipment Provided", "Changing Rooms", "Water Station"]

  /** The selection and the details panel of the page. */
  datatype FeedState = FeedState(selectedActivity: Option<string>, activityDetails: Option<ActivityDetails>)

  const InitialFeed := FeedState(None, None)

  /** `liveActivities.find(a => a.id === id)`: the first entry with that id. */
  function FindById(feed: seq<LiveActivity>, id: string): (r: Option<LiveActivity>)
    ensures r.Some? ==> r.value in feed && r.value.id == id
    ensures r.None? <==> forall a :: a in feed ==> a.id != id
    ensures r.Some? ==> exists k :: 0 <= k < |feed| && feed[k] == r.value &&
                                    (forall j :: 0 <= j < k ==> feed[j].id != id)
    decreases |feed|
  {
    if |feed| == 0 then None
    else if feed[0].id == id then Some(feed[0])
    else
      var r := FindById(feed[1..], id);
      if r.Some? then
        var k :| 0 <= k < |feed[1..]| && feed[1..][k] == r.value &&
          forall j :: 0 <= j < k ==> feed[1..][j].id != id;
        assert feed[k + 1] == r.value;
        r
      else r
  }

  /** The text of the details panel. */
  const DescriptionTail := " session. This activity uses smart location matching and secure payment processing."

  function Description(a: LiveActivity): (r: string)
    ensures IsPrefix("Join " + a.instructor, r)
    ensures OccursAt(r, ToLower(a.activityType), |"Join " + a.instructor| + |" for an amazing "|)
    ensures Includes(r, a.activityType)
  {
    var head := "Join " + a.instructor;
    var lead := head + " for an amazing ";
    var kind := ToLower(a.activityType);
    var r := lead + kind + DescriptionTail;
    Pieces(head, " for an amazing ", kind, DescriptionTail);
    LowerOccurrence(r, kind, |lead|);
    ToLowerIdempotent(a.activityType);
    r
  }

  /** Where the pieces of a four-part concatenation sit. */
  lemma Pieces(w: string, x: string, y: string, z: string)
    ensures var r := w + x + y + z;
      r[..|w|] == w && r[|w| + |x|..|w| + |x| + |y|] == y
  {
  }

  /** A lower-cased string that occurs in `r` is included in it ignoring case. */
  lemma LowerOccurrence(r: string, kind: string, i: int)
    requires OccursAt(r, kind, i)
    requires forall k :: 0 <= k < |kind| ==> !('A' <= kind[k] <= 'Z')
    ensures Contains(ToLower(r), ToLower(kind))
  {
    var lr, lk := ToLower(r), ToLower(kind);
    assert lk == kind;
    assert lr[i..i + |kind|] == kind by {
      forall k | 0 <= k < |kind| ensures lr[i + k] == kind[k] {
        assert r[i + k] == kind[k];
      }
    }
    assert OccursAt(lr, lk, i);
    ContainsAt(lr, lk);
  }

  /** The details the panel shows for a feed entry. */
  function DetailsFor(a: LiveActivity): (d: ActivityDetails)
    ensures d.id == a.id && d.title == a.title && d.instructor == a.instructor
    ensures d.location == a.location && d.participants == a.participants
    ensures d.maxParticipants == a.maxParticipants && d.price == a.price
    ensures d.difficulty == a.difficulty && d.startTime == a.startTime && d.duration == a.duration
    ensures d.instructorRating == a.rating && d.rating == a.rating
    ensures |d.nextSession| >= 12 && d.nextSession[..12] == "Tomorrow at " && d.nextSession[12..] == a.startTime
    ensures IsPrefix("Join " + a.instructor, d.description) && Includes(d.description, a.activityType)
  {
    var d := ActivityDetails(a.id, a.title, Description(a), a.instructor, a.rating,
      a.location, Address, a.participants, a.maxParticipants, a.price, a.rating,
      a.difficulty, a.startTime, a.duration, "Tomorrow at " + a.startTime, Amenities);
    d
  }

  /** `handleActivityClick`: a known id selects the first entry with that
      id and fills the details from it; an unknown id changes nothing. */
  function HandleActivityClick(feed: seq<LiveActivity>, st: FeedState, id: string): (r: FeedState)
    ensures (forall a :: a in feed ==> a.id != id) ==> r == st
    ensures (exists a :: a in feed && a.id == id) ==>
      && r.selectedActivity == Some(id)
      && r.activityDetails.Some?
      && r.activityDetails.value.id == id
      && r.activityDetails.value in (set a | a in feed :: DetailsFor(a))
    ensures (exists a :: a in feed && a.id == id) ==>
      exists k :: 0 <= k < |feed| && feed[k].id == id &&
                  (forall j :: 0 <= j < k ==> feed[j].id != id) &&
                  r.activityDetails == Some(DetailsFor(feed[k]))
  {
    match FindById(feed, id)
    case None => st
    case Some(a) => FeedState(Some(id), Some(DetailsFor(a)))
  }

  /** Clicking the same entry again changes nothing more. */
  lemma ClickIdempotent(feed: seq<LiveActivity>, st: FeedState, id: string)
    ensures HandleActivityClick(feed, HandleActivityClick(feed, st, id), id) == HandleActivityClick(feed, st, id)
  {
  }

  /** The result of a click does not depend on what was selected before,
      once the id is in the feed. */
  lemma ClickForgetsPrevious(feed: seq<LiveActivity>, st1: FeedState, st2: FeedState, id: string)
    requires exists a :: a in feed && a.id == id
    ensures HandleActivityClick(feed, st1, id) == HandleActivityClick(feed, st2, id)
  {
  }

  /** The close button: the selection goes, the details stay. */
  function Close(st: FeedState): (r: FeedState)
    ensures r.selectedActivity.None?
    ensures r.activityDetails == st.activityDetails
  {
    st.(selectedActivity := None)
  }

  /** The panel shows whenever there are details, so closing after a click
      leaves it open. */
  lemma CloseKeepsPanelOpen(feed: seq<LiveActivity>, st: FeedState, id: string)
    requires exists a :: a in feed && a.id == id
    ensures Close(HandleActivityClick(feed, st, id)).activityDetails.Some?
  {
  }

  /** `getDifficultyColor`: badge classes for the three levels, slate for
      anything else. */
  function DifficultyColor(difficulty: string): (r: string)
    ensures r == "text-slate-400 bg-slate-500/20" <==>
      difficulty != "Beginner" && difficulty != "Intermediate" && difficulty != "Advanced"
    ensures difficulty == "Beginner" <==> r == "text-green-400 bg-green-500/20"
    ensures difficulty == "Intermediate" <==> r == "text-yellow-400 bg-yellow-500/20"
    ensures difficulty == "Advanced" <==> r == "text-red-400 bg-red-500/20"
  {
    if difficulty == "Beginner" then "text-green-400 bg-green-500/20"
    else if difficulty == "Intermediate" then "text-yellow-400 bg-yellow-500/20"
    else if difficulty == "Advanced" then "text-red-400 bg-red-500/20"
    else "text-slate-400 bg-slate-500/20"
  }

  /** The price label of a card and of the details panel. */
  function PriceLabel(price: nat): (r: string)
    ensures r == "Free" <==> price == 0
    ensures price > 0 ==> |r| >= 2 && r[0] == '$' && AllDigits(r[1..])
    ensures price > 0 ==> DecimalValue(r[1..]) == price && r[1] != '0'
  {
    if price == 0 then "Free"
    else
      var r := "$" + NatToString(price);
      assert r[0] != "Free"[0];
      assert r[1..] == NatToString(price);
      NatToStringRoundTrip(price);
      r
  }

  /** The panel shows the same price label as the card it came from. */
  lemma PanelPriceMatchesCard(feed: seq<LiveActivity>, st: FeedState, id: string, a: LiveActivity)
    requires a in feed && a.id == id
    requires forall b :: b in feed && b.id == id ==> b == a
    ensures PriceLabel(HandleActivityClick(feed, st, id).activityDetails.value.price) == PriceLabel(a.price)
  {
  }
}

=== FILE: options.dfy ===
/** Optional values, for the `T | null` and `T | undefined` fields of the pages. */
module Options {

  datatype Option<+T> = None | Some(value: T) {

    /** The value, or `default` when absent. */
    function GetOr(default: T): T {
      match this
      case Some(v) => v
      case None => default
    }
  }
}

=== FILE: payment.dfy ===
/** The payment page (app/payment/page.tsx): card-number and expiry-date
    formatting with the length guards of the change handlers, the plan
    table and the amount to pay. */
module PaymentPage {
  import opened Text
  import opened Options

  function Min(a: int, b: int): int {
    if a <= b then a else b
  }

  /** `parts.join(" ")` over the 4-character slices of `d`. */
  function Group4(d: string): (r: string)
    ensures |r| >= |d|
    ensures r == d <==> |d| <= 4
    decreases |d|
  {
    if |d| <= 4 then d else d[..4] + " " + Group4(d[4..])
  }

  /** The shape of a grouped card number: a space exactly at every fifth
      position, and none at the end. */
  predicate GroupedShape(r: string) {
    && (forall i :: 0 <= i < |r| ==> (r[i] == ' ' <==> i % 5 == 4))
    && (|r| == 0 || r[|r| - 1] != ' ')
  }

  /** Grouping a digit string yields digits and spaces only. */
  lemma {:induction false} Group4Chars(d: string)
    requires AllDigits(d)
    ensures forall i :: 0 <= i < |Group4(d)| ==> IsDigit(Group4(d)[i]) || Group4(d)[i] == ' '
    decreases |d|
  {
    if |d| > 4 {
      Group4Chars(d[4..]);
      var rest := Group4(d[4..]);
      assert Group4(d) == d[..4] + " " + rest;
    }
  }

  /** Grouping a digit string puts a space exactly between groups of four. */
  lemma {:induction false} Group4Shape(d: string)
    requires AllDigits(d)
    ensures GroupedShape(Group4(d))
    decreases |d|
  {
    if |d| > 4 {
      var rest := Group4(d[4..]);
      Group4Shape(d[4..]);
      var r := d[..4] + " " + rest;
      assert Group4(d) == r;
      forall i | 0 <= i < |r| ensures r[i] == ' ' <==> i % 5 == 4 {
        if i >= 5 {
          assert r[i] == rest[i - 5];
          assert (i - 5) % 5 == i % 5;
        } else if i < 4 {
          assert r[i] == d[i];
        }
      }
      assert |rest| > 0;
      assert r[|r| - 1] == rest[|rest| - 1];
    }
  }

  /** Removing the spaces of a grouped digit string gives the digits back. */
  lemma {:induction false} Group4Digits(d: string)
    requires AllDigits(d)
    ensures KeepDigits(Group4(d)) == d
    decreases |d|
  {
    if |d| <= 4 {
      KeepDigitsOfDigits(d);
    } else {
      var head, tail := d[..4], d[4..];
      var rest := Group4(tail);
      Group4Digits(tail);
      KeepDigitsOfDigits(head);
      KeepDigitsSkip(' ');
      KeepDigitsAppend(" ", rest);
      assert KeepDigits(" " + rest) == tail;
      KeepDigitsAppend(head, " " + rest);
      assert Group4(d) == head + (" " + rest);
      assert KeepDigits(Group4(d)) == head + tail;
      assert d == head + tail;
    }
  }

  /** A grouped digit string has one space per full group but the last. */
  lemma {:induction false} Group4Length(d: string)
    requires |d| > 0
    ensures |Group4(d)| == |d| + (|d| - 1) / 4
    decreases |d|
  {
    if |d| > 4 {
      Group4Length(d[4..]);
    }
  }

  /** `formatCardNumber`: keep the digits; with at least four of them, the
      first sixteen in groups of four, otherwise the bare digits. */
  function FormatCardNumber(value: string): (r: string)
    ensures forall i :: 0 <= i < |r| ==> IsDigit(r[i]) || r[i] == ' '
    ensures KeepDigits(r) == KeepDigits(value)[..Min(|KeepDigits(value)|, 16)]
    ensures |KeepDigits(value)| < 4 ==> r == KeepDigits(value)
    ensures GroupedShape(r)
    ensures |r| <= 19
  {
    var v := KeepDigits(value);
    if |v| >= 4 then
      var m := v[..Min(|v|, 16)];
      Group4Chars(m);
      Group4Shape(m);
      Group4Digits(m);
      Group4Length(m);
      Group4(m)
    else
      KeepDigitsOfDigits(v);
      v
  }

  /** Formatting a formatted card number changes nothing. */
  lemma FormatCardNumberIdempotent(value: string)
    ensures FormatCardNumber(FormatCardNumber(value)) == FormatCardNumber(value)
  {
    var v := KeepDigits(value);
    var r := FormatCardNumber(value);
    var t := v[..Min(|v|, 16)];
    assert KeepDigits(r) == t;
    if |v| >= 4 {
      assert t[..Min(|t|, 16)] == t;
      assert r == Group4(t);
    } else {
      assert t == v;
    }
  }

  /** `formatExpiryDate`: with two or more digits, `MM/` followed by at
      most two more digits; otherwise the bare digits. */
  function FormatExpiryDate(value: string): (r: string)
    ensures |r| <= 5
    ensures |KeepDigits(value)| < 2 ==> r == KeepDigits(value)
    ensures |KeepDigits(value)| >= 2 ==> |r| >= 3 && r[2] == '/' && r[..2] == KeepDigits(value)[..2]
    ensures |KeepDigits(value)| >= 2 ==> AllDigits(r[3..])
    ensures KeepDigits(r) == KeepDigits(value)[..Min(|KeepDigits(value)|, 4)]
  {
    var v := KeepDigits(value);
    if |v| >= 2 then
      ExpiryDigits(v);
      var r := v[..2] + "/" + v[2..Min(|v|, 4)];
      assert r[3..] == v[2..Min(|v|, 4)];
      r
    else v
  }

  /** Removing the slash of a formatted expiry date gives its digits back. */
  lemma ExpiryDigits(v: string)
    requires AllDigits(v) && |v| >= 2
    ensures KeepDigits(v[..2] + "/" + v[2..Min(|v|, 4)]) == v[..Min(|v|, 4)]
  {
    var a, b := v[..2], v[2..Min(|v|, 4)];
    KeepDigitsAppend(a, "/" + b);
    KeepDigitsAppend("/", b);
    KeepDigitsSkip('/');
    assert a + ("/" + b) == a + "/" + b;
    assert v[..Min(|v|, 4)] == a + b;
  }

  /** Formatting a formatted expiry date changes nothing. */
  lemma FormatExpiryDateIdempotent(value: string)
    ensures FormatExpiryDate(FormatExpiryDate(value)) == FormatExpiryDate(value)
  {
    var v := KeepDigits(value);
    var r := FormatExpiryDate(value);
    if |v| < 2 {
      KeepDigitsOfDigits(v);
    } else {
      assert KeepDigits(r)[..2] == v[..2];
      assert KeepDigits(r)[2..] == v[2..Min(|v|, 4)];
    }
  }

  /** `handleCardNumberChange`: the field takes the formatted input when it
      is at most 19 characters long. */
  function CardNumberChange(current: string, input: string): (r: string)
    ensures r == FormatCardNumber(input) || r == current
    ensures |current| <= 19 ==> |r| <= 19
  {
    var f := FormatCardNumber(input);
    if |f| <= 19 then f else current
  }

  /** `handleExpiryChange`: the field takes the formatted input when it is
      at most 5 characters long. */
  function ExpiryChange(current: string, input: string): (r: string)
    ensures r == FormatExpiryDate(input) || r == current
    ensures |current| <= 5 ==> |r| <= 5
  {
    var f := FormatExpiryDate(input);
    if |f| <= 5 then f else current
  }

  /** Neither length guard ever rejects a formatted value. */
  lemma GuardsAlwaysAccept(current: string, input: string)
    ensures CardNumberChange(current, input) == FormatCardNumber(input)
    ensures ExpiryChange(current, input) == FormatExpiryDate(input)
  {
  }

  datatype BillingCycle = Monthly | Yearly

  /** A membership plan with its monthly and yearly price in rupees. */
  datatype Plan = Plan(id: string, name: string, monthly: nat, yearly: nat)

  function PriceFor(p: Plan, cycle: BillingCycle): nat {
    match cycle
    case Monthly => p.monthly
    case Yearly => p.yearly
  }

  const Plans: seq<Plan> := [
    Plan("community", "Community", 0, 0),
    Plan("pro", "Fitness Pro", 499, 4990),
    Plan("elite", "Elite Athlete", 999, 9990)
  ]

  /** The fields of the activity being booked that the page reads. */
  datatype Booking = Booking(id: string, title: string, price: nat)

  /** `plans.find(plan => plan.id === id)`: the first plan with that id. */
  function FindPlan(plans: seq<Plan>, id: string): (r: Option<Plan>)
    ensures r.Some? ==> r.value in plans && r.value.id == id
    ensures r.None? <==> forall p :: p in plans ==> p.id != id
    ensures r.Some? ==> exists k :: 0 <= k < |plans| && plans[k] == r.value &&
                                    (forall j :: 0 <= j < k ==> plans[j].id != id)
    decreases |plans|
  {
    if |plans| == 0 then None
    else if plans[0].id == id then Some(plans[0])
    else
      var r := FindPlan(plans[1..], id);
      if r.Some? then
        var k :| 0 <= k < |plans[1..]| && plans[1..][k] == r.value &&
          forall j :: 0 <= j < k ==> plans[1..][j].id != id;
        assert plans[k + 1] == r.value;
        r
      else r
  }

  /** `totalAmount`: the booked activity's price in booking mode, else the
      chosen plan's price for the cycle, and 0 when either is missing. */
  function TotalAmount(bookingMode: bool, booking: Option<Booking>, planId: string, cycle: BillingCycle): (r: nat)
    ensures bookingMode && booking.Some? ==> r == booking.value.price
    ensures bookingMode && booking.None? ==> r == 0
    ensures !bookingMode ==> (r == 0 <==> forall p :: p in Plans && p.id == planId ==> PriceFor(p, cycle) == 0)
    ensures !bookingMode ==> forall p :: p in Plans && p.id == planId ==> r == PriceFor(p, cycle)
  {
    if bookingMode then
      match booking
      case Some(b) => b.price
      case None => 0
    else
      match FindPlan(Plans, planId)
      case Some(p) => PriceFor(p, cycle)
      case None => 0
  }

  /** The plan table's prices as the page charges them. */
  lemma PlanPrices()
    ensures TotalAmount(false, None, "community", Monthly) == 0
    ensures TotalAmount(false, None, "community", Yearly) == 0
    ensures TotalAmount(false, None, "pro", Monthly) == 499
    ensures TotalAmount(false, None, "pro", Yearly) == 4990
    ensures TotalAmount(false, None, "elite", Monthly) == 999
    ensures TotalAmount(false, None, "elite", Yearly) == 9990
    ensures TotalAmount(false, None, "platinum", Yearly) == 0
  {
  }
}

=== FILE: pricing.dfy ===
/** The pricing cards (components/ui/pricing-section.tsx): prices, struck
    through original prices and checkout ids by billing interval, the route
    a card's button leads to, and the rounded per-month figure. */
module PricingSection {
  import opened Options
  import PaymentPage

  datatype Interval = Month | Year

  /** The interval button. */
  function ToggleInterval(i: Interval): (r: Interval)
    ensures r != i
  {
    if i == Month then Year else Month
  }

  datatype PricingPlan = PricingPlan(
    id: string,
    name: string,
    price: nat,
    originalPrice: Option<nat>,
    interval: Interval,
    stripePriceId: string)

  /** The three cards for the chosen interval. The free plan always reads
      as monthly. */
  function Plans(billing: Interval): (r: seq<PricingPlan>)
    ensures |r| == 3
    ensures r[0].id == "community" && r[1].id == "pro" && r[2].id == "elite"
    ensures r[0].price == 0 && r[0].interval == Month && r[0].originalPrice.None?
    ensures forall i :: 1 <= i < 3 ==> r[i].price > 0 && r[i].interval == billing
    ensures r[1].price == (if billing == Month then 499 else 4990)
    ensures r[2].price == (if billing == Month then 999 else 9990)
    ensures r[1].originalPrice == (if billing == Year then Some(5988) else None)
    ensures r[2].originalPrice == (if billing == Year then Some(11988) else None)
  {
    [
      PricingPlan("community", "Community", 0, None, Month, "price_free"),
      PricingPlan("pro", "Fitness Pro",
        if billing == Month then 499 else 4990,
        if billing == Year then Some(5988) else None,
        billing,
        if billing == Month then "price_pro_monthly" else "price_pro_yearly"),
      PricingPlan("elite", "Elite Athlete",
        if billing == Month then 999 else 9990,
        if billing == Year then Some(11988) else None,
        billing,
        if billing == Month then "price_elite_monthly" else "price_elite_yearly")
    ]
  }

  /** The struck-through price appears only with yearly billing, and is
      twelve times the same plan's monthly price. */
  lemma OriginalPriceIsTwelveMonths(billing: Interval, i: int)
    requires 0 <= i < 3
    ensures Plans(billing)[i].originalPrice.Some? ==> billing == Year
    ensures Plans(billing)[i].originalPrice.Some? ==>
      Plans(billing)[i].originalPrice.value == 12 * Plans(Month)[i].price
    ensures billing == Year && Plans(Month)[i].price > 0 ==> Plans(billing)[i].originalPrice.Some?
  {
  }

  /** Every card keeps its id across intervals; the checkout id names the
      interval, except the free plan's. */
  lemma CheckoutIdsFollowInterval(billing: Interval, i: int)
    requires 0 <= i < 3
    ensures Plans(billing)[i].id == Plans(Month)[i].id
    ensures i == 0 ==> Plans(billing)[i].stripePriceId == "price_free" && Plans(billing)[i].price == 0
    ensures i > 0 && billing == Month ==> Plans(billing)[i].stripePriceId == "price_" + Plans(billing)[i].id + "_monthly"
    ensures i > 0 && billing == Year ==> Plans(billing)[i].stripePriceId == "price_" + Plans(billing)[i].id + "_yearly"
  {
    if i == 1 {
      assert "price_" + "pro" + "_monthly" == "price_pro_monthly";
      assert "price_" + "pro" + "_yearly" == "price_pro_yearly";
    } else if i == 2 {
      assert "price_" + "elite" + "_monthly" == "price_elite_monthly";
      assert "price_" + "elite" + "_yearly" == "price_elite_yearly";
    }
  }

  /** `handleSelectPlan`: free plans go to sign-up, paid plans to checkout. */
  function SelectPlanRoute(plan: PricingPlan): (r: string)
    ensures plan.price == 0 <==> r == "/profile?plan=free"
    ensures plan.price > 0 ==> |r| >= 14 && r[..14] == "/payment?plan=" && r[14..] == plan.id
  {
    if plan.price == 0 then "/profile?plan=free"
    else
      var r := "/payment?plan=" + plan.id;
      assert r[2] != "/profile?plan=free"[2];
      r
  }

  /** `Math.round(n / 12)` for a whole number `n`: the nearest integer, with
      halves rounded up. */
  function RoundDiv12(n: nat): (r: nat)
    ensures 12 * r - 6 <= n < 12 * r + 6
  {
    (n + 6) / 12
  }

  /** The "per month billed annually" line: shown only for paid plans under
      yearly billing. */
  function PerMonthLine(plan: PricingPlan, billing: Interval): (r: Option<nat>)
    ensures r.Some? <==> billing == Year && plan.price > 0
    ensures r.Some? ==> 12 * r.value - 6 <= plan.price < 12 * r.value + 6
  {
    if billing == Year && plan.price > 0 then Some(RoundDiv12(plan.price)) else None
  }

  /** The figures the yearly cards show. */
  lemma YearlyPerMonthFigures()
    ensures PerMonthLine(Plans(Year)[0], Year) == None
    ensures PerMonthLine(Plans(Year)[1], Year) == Some(416)
    ensures PerMonthLine(Plans(Year)[2], Year) == Some(833)
    ensures forall p :: p in Plans(Month) ==> PerMonthLine(p, Month) == None
  {
  }

  /** The checkout cycle a card's interval leads to. */
  function CycleOf(billing: Interval): PaymentPage.BillingCycle {
    if billing == Month then PaymentPage.Monthly else PaymentPage.Yearly
  }

  /** Every card's price is what the checkout page charges for that plan
      and interval. */
  lemma CardPriceIsCharged(billing: Interval, i: int)
    requires 0 <= i < 3
    ensures Plans(billing)[i].price ==
      PaymentPage.TotalAmount(false, None, Plans(billing)[i].id, CycleOf(billing))
  {
  }

  /** Pressing the interval button twice changes nothing. */
  lemma ToggleIntervalTwice(i: Interval)
    ensures ToggleInterval(ToggleInterval(i)) == i
  {
  }
}

=== FILE: profile.dfy ===
/** The mocked authentication and profile page (app/profile/page.tsx):
    ordered form validation, the profile records built on login and
    registration, logout, and the preference chips. */
module ProfilePage {
  import opened Options
  import opened Text
  import SearchInterface

  datatype FitnessLevel = Beginner | Intermediate | Advanced

  datatype UserProfile = UserProfile(
    name: string, email: string, phone: string, location: string,
    occupation: string, age: nat, fitnessLevel: FitnessLevel, avatar: string)

  datatype LoginForm = LoginForm(email: string, password: string)

  datatype RegisterForm = RegisterForm(
    name: string, email: string, password: string, confirmPassword: string,
    phone: string, location: string)

  const EmptyLogin := LoginForm("", "")
  const EmptyRegister := RegisterForm("", "", "", "", "", "")
  const PlaceholderAvatar := "/placeholder.svg?height=100&width=100"

  const FillAllFields := "Please fill in all fields"
  const FillRequiredFields := "Please fill in all required fields"
  const InvalidEmail := "Please enter a valid email address"
  const PasswordTooShort := "Password must be at least 6 characters long"
  const PasswordsDiffer := "Passwords do not match"

  /** The page's authentication state. */
  datatype AuthState = AuthState(
    isLoggedIn: bool,
    profile: UserProfile,
    loginForm: LoginForm,
    registerForm: RegisterForm,
    authError: string,
    authSuccess: string)

  /** The login checks, in order; the message of the first one that fails. */
  function ValidateLogin(f: LoginForm): (r: Option<string>)
    ensures r.None? <==> |f.email| > 0 && |f.password| > 0 && '@' in f.email
    ensures (|f.email| == 0 || |f.password| == 0) ==> r == Some(FillAllFields)
    ensures |f.email| > 0 && |f.password| > 0 && '@' !in f.email ==> r == Some(InvalidEmail)
  {
    if |f.email| == 0 || |f.password| == 0 then Some(FillAllFields)
    else if '@' !in f.email then Some(InvalidEmail)
    else None
  }

  /** The mock account a successful login signs into. */
  function LoginProfile(email: string): (p: UserProfile)
    ensures p.email == email
    ensures p.name == "Priya Sharma" && p.age == 28 && p.fitnessLevel == Intermediate
  {
    UserProfile("Priya Sharma", email, "+91 98765 43210", "Cyber City, Gurgaon",
      "Software Engineer", 28, Intermediate, PlaceholderAvatar)
  }

  /** `handleLogin`. A failed check only sets the error; success signs in
      with the entered email and clears the form. */
  function HandleLogin(st: AuthState): (r: AuthState)
    ensures ValidateLogin(st.loginForm).Some? ==>
      r == st.(authError := ValidateLogin(st.loginForm).value, authSuccess := "")
    ensures ValidateLogin(st.loginForm).None? ==>
      && r.isLoggedIn
      && r.profile.email == st.loginForm.email
      && r.loginForm == EmptyLogin
      && r.registerForm == st.registerForm
      && r.authError == ""
  {
    match ValidateLogin(st.loginForm)
    case Some(msg) => st.(authError := msg, authSuccess := "")
    case None =>
      st.(isLoggedIn := true, profile := LoginProfile(st.loginForm.email),
          loginForm := EmptyLogin, authError := "",
          authSuccess := "Login successful! Welcome back.")
  }

  /** A signed-out user is signed in by the login button exactly when the
      email and password are filled in and the email has an '@'. */
  lemma LoginSucceedsExactlyWhenValid(st: AuthState)
    requires !st.isLoggedIn
    ensures HandleLogin(st).isLoggedIn <==>
      |st.loginForm.email| > 0 && |st.loginForm.password| > 0 && '@' in st.loginForm.email
  {
  }

  /** The registration checks, in order; the message of the first one that
      fails. The password's length is JavaScript's, in UTF-16 code units. */
  function ValidateRegister(f: RegisterForm): (r: Option<string>)
    ensures (|f.name| == 0 || |f.email| == 0 || |f.password| == 0 || |f.confirmPassword| == 0) ==>
      r == Some(FillRequiredFields)
  {
    if |f.name| == 0 || |f.email| == 0 || |f.password| == 0 || |f.confirmPassword| == 0 then
      Some(FillRequiredFields)
    else if '@' !in f.email then Some(InvalidEmail)
    else if Utf16Length(f.password) < 6 then Some(PasswordTooShort)
    else if f.password != f.confirmPassword then Some(PasswordsDiffer)
    else None
  }

  /** Registration passes exactly when all four checks pass. */
  lemma RegisterAcceptsExactly(f: RegisterForm)
    ensures ValidateRegister(f).None? <==>
      && |f.name| > 0 && |f.email| > 0 && |f.password| > 0 && |f.confirmPassword| > 0
      && '@' in f.email
      && Utf16Length(f.password) >= 6
      && f.password == f.confirmPassword
  {
  }

  /** Three characters outside the Basic Multilingual Plane make a long
      enough password: JavaScript counts each of them twice. */
  lemma AstralPasswordIsLongEnough(name: string, email: string)
    requires |name| > 0 && '@' in email
    ensures var pw := ['\U{1F600}', '\U{1F600}', '\U{1F600}'];
      ValidateRegister(RegisterForm(name, email, pw, pw, "", "")).None?
  {
    var pw := ['\U{1F600}', '\U{1F600}', '\U{1F600}'];
    assert pw[1..][1..][1..] == [];
  }

  /** Each message is reported only when every earlier check passed and its
      own check failed. */
  lemma RegisterFirstFailure(f: RegisterForm)
    ensures ValidateRegister(f) == Some(InvalidEmail) <==>
      |f.name| > 0 && |f.email| > 0 && |f.password| > 0 && |f.confirmPassword| > 0 && '@' !in f.email
    ensures ValidateRegister(f) == Some(PasswordTooShort) <==>
      |f.name| > 0 && |f.email| > 0 && |f.confirmPassword| > 0 && '@' in f.email
      && |f.password| > 0 && Utf16Length(f.password) < 6
    ensures ValidateRegister(f) == Some(PasswordsDiffer) <==>
      |f.name| > 0 && |f.email| > 0 && |f.confirmPassword| > 0 && '@' in f.email
      && Utf16Length(f.password) >= 6 && f.password != f.confirmPassword
  {
  }

  /** The profile a successful registration creates. */
  function RegisteredProfile(f: RegisterForm): (p: UserProfile)
    ensures p.name == f.name && p.email == f.email
    ensures p.phone == (if f.phone == "" then "+91 00000 00000" else f.phone)
    ensures p.location == (if f.location == "" then "India" else f.location)
    ensures p.occupation == "Professional" && p.age == 25 && p.fitnessLevel == Beginner
  {
    UserProfile(f.name, f.email,
      if |f.phone| > 0 then f.phone else "+91 00000 00000",
      if |f.location| > 0 then f.location else "India",
      "Professional", 25, Beginner, PlaceholderAvatar)
  }

  /** `handleRegister`. */
  function HandleRegister(st: AuthState): (r: AuthState)
    ensures ValidateRegister(st.registerForm).Some? ==>
      r == st.(authError := ValidateRegister(st.registerForm).value, authSuccess := "")
    ensures ValidateRegister(st.registerForm).None? ==>
      && r.isLoggedIn
      && r.profile == RegisteredProfile(st.registerForm)
      && r.registerForm == EmptyRegister
      && r.loginForm == st.loginForm
      && r.authError == ""
  {
    match ValidateRegister(st.registerForm)
    case Some(msg) => st.(authError := msg, authSuccess := "")
    case None =>
      st.(isLoggedIn := true, profile := RegisteredProfile(st.registerForm),
          registerForm := EmptyRegister, authError := "",
          authSuccess := "Registration successful! Welcome to NeighborFit.")
  }

  /** A successful registration means every check held on the form. */
  lemma RegisterSuccessImpliesValid(st: AuthState)
    requires HandleRegister(st).isLoggedIn && !st.isLoggedIn
    ensures |st.registerForm.name| > 0 && |st.registerForm.email| > 0
    ensures Utf16Length(st.registerForm.password) >= 6 && '@' in st.registerForm.email
    ensures st.registerForm.password == st.registerForm.confirmPassword
  {
    RegisterAcceptsExactly(st.registerForm);
  }

  /** The profile shown after logout. */
  const LoggedOutProfile := UserProfile("", "", "", "", "", 25, Beginner, PlaceholderAvatar)

  /** `handleLogout`: signed out with a blank profile; the forms and any
      earlier error are untouched. */
  function HandleLogout(st: AuthState): (r: AuthState)
    ensures !r.isLoggedIn
    ensures r.profile.name == "" && r.profile.email == "" && r.profile.phone == ""
    ensures r.profile.location == "" && r.profile.occupation == ""
    ensures r.profile.age == 25 && r.profile.fitnessLevel == Beginner
    ensures r.loginForm == st.loginForm && r.registerForm == st.registerForm && r.authError == st.authError
  {
    st.(isLoggedIn := false, profile := LoggedOutProfile, authSuccess := "Logged out successfully")
  }

  /** Logging out forgets who was signed in: the result does not depend on
      the previous profile. */
  lemma LogoutForgetsProfile(st: AuthState, other: UserProfile)
    ensures HandleLogout(st.(profile := other)) == HandleLogout(st)
  {
  }

  /** The fitness preferences; `budgetMin`/`budgetMax` stand for `budgetRange`. */
  datatype Preferences = Preferences(
    goals: seq<string>,
    preferredActivities: seq<string>,
    availableTime: seq<string>,
    fitnessLevel: FitnessLevel,
    preferredIntensity: int,
    socialPreference: int,
    budgetMin: int,
    budgetMax: int,
    travelDistance: int)

  /** A goal chip: flips that goal, nothing else changes. */
  function ToggleGoal(p: Preferences, goal: string): (r: Preferences)
    ensures goal in r.goals <==> goal !in p.goals
    ensures forall g :: g != goal ==> (g in r.goals <==> g in p.goals)
    ensures goal !in p.goals ==> r.goals == p.goals + [goal]
    ensures r.(goals := p.goals) == p
  {
    p.(goals := SearchInterface.ToggleChip(p.goals, goal))
  }

  /** A preferred-activity chip: flips that activity, nothing else changes. */
  function ToggleActivity(p: Preferences, activity: string): (r: Preferences)
    ensures activity in r.preferredActivities <==> activity !in p.preferredActivities
    ensures forall a :: a != activity ==> (a in r.preferredActivities <==> a in p.preferredActivities)
    ensures activity !in p.preferredActivities ==> r.preferredActivities == p.preferredActivities + [activity]
    ensures r.(preferredActivities := p.preferredActivities) == p
  {
    p.(preferredActivities := SearchInterface.ToggleChip(p.preferredActivities, activity))
  }

  /** Pressing an unselected goal twice restores the preferences exactly. */
  lemma ToggleGoalTwice(p: Preferences, goal: string)
    requires goal !in p.goals
    ensures ToggleGoal(ToggleGoal(p, goal), goal) == p
  {
    SearchInterface.ToggleTwiceRestores(p.goals, goal);
  }
}

=== FILE: search_interface.dfy ===
/** The search box with filter chips (components/ui/search-interface.tsx):
    the chip list behaves as a set kept in insertion order, and every
    change is reported to the page through its callbacks. */
module SearchInterface {
  import Seqs

  /** `handleFilterToggle`: remove the chip when selected, append it otherwise.
      The same rule drives the goal and activity toggles of the profile page. */
  function ToggleChip(selected: seq<string>, chip: string): (r: seq<string>)
    ensures chip in r <==> chip !in selected
    ensures forall c :: c != chip ==> (c in r <==> c in selected)
    ensures chip !in selected ==> r == selected + [chip]
  {
    if chip in selected then
      var r := Seqs.Filter(selected, c => c != chip);
      forall c | c != chip
        ensures c in r <==> c in selected
      {
        Seqs.FilterMembership(selected, x => x != chip, c);
      }
      r
    else selected + [chip]
  }

  /** Removing a chip keeps every other chip, in the same relative order. */
  lemma RemoveKeepsOthers(selected: seq<string>, chip: string)
    requires chip in selected
    ensures Seqs.SubseqOf(ToggleChip(selected, chip), selected)
    ensures forall c :: c in selected && c != chip ==> c in ToggleChip(selected, chip)
  {
  }

  /** A toggle never introduces a duplicate. */
  lemma ToggleKeepsNoDup(selected: seq<string>, chip: string)
    requires Seqs.NoDup(selected)
    ensures Seqs.NoDup(ToggleChip(selected, chip))
  {
    var r := ToggleChip(selected, chip);
    if chip in selected {
      forall x | x in r
        ensures multiset(r)[x] == 1
      {
        assert multiset(r)[x] <= multiset(selected)[x];
      }
    } else {
      assert multiset(r) == multiset(selected) + multiset{chip};
    }
  }

  /** Toggling an unselected chip twice restores the list exactly. */
  lemma ToggleTwiceRestores(selected: seq<string>, chip: string)
    requires chip !in selected
    ensures ToggleChip(ToggleChip(selected, chip), chip) == selected
  {
    var once := selected + [chip];
    Seqs.FilterAppend(selected, [chip], c => c != chip);
    assert Seqs.Filter([chip], c => c != chip) == [];
  }

  /** The search box's own state. */
  datatype SearchBox = SearchBox(query: string, showFilterPanel: bool, selected: seq<string>)

  const InitialBox := SearchBox("", false, [])

  /** User interactions with the search box. */
  datatype BoxEvent =
    | TypeQuery(value: string)      // the input's onChange
    | ToggleFilter(chip: string)    // a chip in the panel or the x on an active chip
    | ClearAll                      // "Clear all"
    | TogglePanel                   // the "Filters" button

  /** A call made to the page's `onSearch` or `onFiltersChange`. */
  datatype Report = Searched(query: string) | FiltersChanged(filters: seq<string>)

  /** One interaction: the new box state and the reports sent to the page. */
  function Handle(box: SearchBox, ev: BoxEvent): (r: (SearchBox, seq<Report>))
    ensures ev.TypeQuery? ==> r.0.query == ev.value && r.1 == [Searched(ev.value)]
    ensures ev.ToggleFilter? ==> r.0.selected == ToggleChip(box.selected, ev.chip)
    ensures ev.ClearAll? ==> r.0.selected == []
    ensures forall rep :: rep in r.1 && rep.FiltersChanged? ==> rep.filters == r.0.selected
    ensures forall rep :: rep in r.1 && rep.Searched? ==> rep.query == r.0.query
    ensures !ev.TogglePanel? ==> r.0.showFilterPanel == box.showFilterPanel
    ensures ev.ToggleFilter? || ev.ClearAll? ==>
      r.1 == [FiltersChanged(r.0.selected)] && r.0.query == box.query
    ensures ev.TypeQuery? ==> r.0.selected == box.selected
    ensures ev.TogglePanel? ==> r.1 == [] && r.0.query == box.query && r.0.selected == box.selected
  {
    match ev
    case TypeQuery(v) => (box.(query := v), [Searched(v)])
    case ToggleFilter(c) =>
      var fs := ToggleChip(box.selected, c);
      (box.(selected := fs), [FiltersChanged(fs)])
    case ClearAll => (box.(selected := []), [FiltersChanged([])])
    case TogglePanel => (box.(showFilterPanel := !box.showFilterPanel), [])
  }

  /** The page-side copy of the search state, written only by the callbacks. */
  datatype PageFilters = PageFilters(searchQuery: string, selectedFilters: seq<string>)

  function Receive(page: PageFilters, reports: seq<Report>): PageFilters
    decreases |reports|
  {
    if |reports| == 0 then page
    else
      var p := match reports[0]
        case Searched(q) => page.(searchQuery := q)
        case FiltersChanged(fs) => page.(selectedFilters := fs);
      Receive(p, reports[1..])
  }

  predicate InSync(box: SearchBox, page: PageFilters) {
    page.searchQuery == box.query && page.selectedFilters == box.selected
  }

  /** Run a sequence of interactions, delivering every report to the page. */
  function Run(box: SearchBox, page: PageFilters, evs: seq<BoxEvent>): (SearchBox, PageFilters)
    decreases |evs|
  {
    if |evs| == 0 then (box, page)
    else
      var (b, reps) := Handle(box, evs[0]);
      Run(b, Receive(page, reps), evs[1..])
  }

  /** The page always holds what the box shows: the reported query and
      chip list equal the box's new state after every interaction. */
  lemma {:induction false} RunKeepsPageInSync(box: SearchBox, page: PageFilters, evs: seq<BoxEvent>)
    requires InSync(box, page)
    ensures InSync(Run(box, page, evs).0, Run(box, page, evs).1)
    decreases |evs|
  {
    if |evs| > 0 {
      var (b, reps) := Handle(box, evs[0]);
      var p := Receive(page, reps);
      match evs[0] {
        case TypeQuery(v) =>
          assert reps == [Searched(v)] && reps[1..] == [];
          assert p == Receive(page.(searchQuery := v), []);
        case ToggleFilter(c) =>
          assert reps == [FiltersChanged(b.selected)] && reps[1..] == [];
          assert p == Receive(page.(selectedFilters := b.selected), []);
        case ClearAll =>
          assert p == Receive(page.(selectedFilters := []), []);
        case TogglePanel =>
      }
      RunKeepsPageInSync(b, p, evs[1..]);
    }
  }

  /** The pages' own "Clear Search" button as written: it empties the
      page's copy of the query, and the search box keeps its text. */
  function PageClearSearch(page: PageFilters): (r: PageFilters)
    ensures r.searchQuery == ""
    ensures r.selectedFilters == page.selectedFilters
  {
    page.(searchQuery := "")
  }

  /** As written, "Clear Search" after typing leaves the box showing text
      that the page no longer filters by. */
  lemma ClearSearchDesyncs(box: SearchBox, page: PageFilters)
    requires InSync(box, page) && box.query != ""
    ensures !InSync(box, PageClearSearch(page))
  {
  }

  /** What a page may do, besides the box's own interactions. */
  datatype PageEvent = FromBox(ev: BoxEvent) | ClearSearch

  /** "Clear Search" as evidently intended: the box's text is emptied
      together with the page's query, as if the user had erased it. */
  function ClearSearchIntended(box: SearchBox, page: PageFilters): (r: (SearchBox, PageFilters))
    ensures r.0.query == "" && r.1.searchQuery == ""
    ensures r.0.selected == box.selected && r.1.selectedFilters == page.selectedFilters
  {
    var (b, reps) := Handle(box, TypeQuery(""));
    assert reps[1..] == [];
    assert Receive(page, reps) == Receive(page.(searchQuery := ""), []);
    (b, Receive(page, reps))
  }

  /** Run interactions with the box and the page's "Clear Search", the
      latter as intended. */
  function RunWithClear(box: SearchBox, page: PageFilters, evs: seq<PageEvent>): (SearchBox, PageFilters)
    decreases |evs|
  {
    if |evs| == 0 then (box, page)
    else
      var (b, p) := match evs[0]
        case FromBox(e) => Run(box, page, [e])
        case ClearSearch => ClearSearchIntended(box, page);
      RunWithClear(b, p, evs[1..])
  }

  /** With the intended "Clear Search", the page and the box agree after
      any sequence of interactions. */
  lemma {:induction false} RunWithClearKeepsPageInSync(box: SearchBox, page: PageFilters, evs: seq<PageEvent>)
    requires InSync(box, page)
    ensures InSync(RunWithClear(box, page, evs).0, RunWithClear(box, page, evs).1)
    decreases |evs|
  {
    if |evs| > 0 {
      var (b, p) := match evs[0]
        case FromBox(e) => Run(box, page, [e])
        case ClearSearch => ClearSearchIntended(box, page);
      match evs[0] {
        case FromBox(e) =>
          RunKeepsPageInSync(box, page, [e]);
        case ClearSearch =>
          var reps := [Searched("")];
          assert Receive(page, reps) == Receive(page.(searchQuery := ""), reps[1..]);
      }
      RunWithClearKeepsPageInSync(b, p, evs[1..]);
    }
  }
}

=== FILE: seqs.dfy ===
/** Order-preserving filtering and the subsequence relation it produces.
    Every `Array.prototype.filter` of the pages is modelled by `Filter`. */
module Seqs {

  /** `r` can be obtained from `s` by deleting elements, keeping the order
      of the remaining ones. */
  ghost predicate SubseqOf<T>(r: seq<T>, s: seq<T>)
    decreases |s|
  {
    if |r| == 0 then true
    else if |s| == 0 then false
    else (r[0] == s[0] && SubseqOf(r[1..], s[1..])) || SubseqOf(r, s[1..])
  }

  /** The elements of `s` that satisfy `p`, in their original order. */
  function Filter<T(!new)>(s: seq<T>, p: T -> bool): (r: seq<T>)
    ensures |r| <= |s|
    ensures forall i :: 0 <= i < |r| ==> p(r[i])
    ensures forall i :: 0 <= i < |s| && p(s[i]) ==> s[i] in r
    ensures multiset(r) <= multiset(s)
    ensures SubseqOf(r, s)
    ensures (forall i :: 0 <= i < |s| ==> p(s[i])) ==> r == s
    decreases |s|
  {
    if |s| == 0 then []
    else
      assert s == [s[0]] + s[1..];
      if p(s[0]) then [s[0]] + Filter(s[1..], p) else Filter(s[1..], p)
  }

  /** A filtered sequence keeps every copy of an element that satisfies
      the predicate, and none of one that does not. */
  lemma {:induction false} FilterMultiplicity<T(!new)>(s: seq<T>, p: T -> bool)
    ensures forall x :: multiset(Filter(s, p))[x] == if p(x) then multiset(s)[x] else 0
    decreases |s|
  {
    if |s| > 0 {
      var rest := Filter(s[1..], p);
      FilterMultiplicity(s[1..], p);
      assert s == [s[0]] + s[1..];
      assert multiset(s) == multiset{s[0]} + multiset(s[1..]);
      if p(s[0]) {
        assert Filter(s, p) == [s[0]] + rest;
        assert multiset([s[0]] + rest) == multiset{s[0]} + multiset(rest);
      } else {
        assert Filter(s, p) == rest;
      }
    }
  }

  /** Membership in a filtered sequence, in both directions. */
  lemma FilterMembership<T(!new)>(s: seq<T>, p: T -> bool, x: T)
    ensures x in Filter(s, p) <==> x in s && p(x)
  {
    var r := Filter(s, p);
    if x in r {
      var i :| 0 <= i < |r| && r[i] == x;
      assert x in multiset(r);
    }
  }

  /** Filtering distributes over concatenation. */
  lemma {:induction false} FilterAppend<T(!new)>(a: seq<T>, b: seq<T>, p: T -> bool)
    ensures Filter(a + b, p) == Filter(a, p) + Filter(b, p)
    decreases |a|
  {
    if |a| == 0 {
      assert a + b == b;
    } else {
      assert (a + b)[1..] == a[1..] + b;
      assert (a + b)[0] == a[0];
      FilterAppend(a[1..], b, p);
    }
  }

  /** The length of a filtered sequence is the number of positions whose
      element satisfies the predicate. */
  lemma {:induction false} FilterCount<T(!new)>(s: seq<T>, p: T -> bool)
    ensures |Filter(s, p)| == |Positions(s, p)|
    decreases |s|
  {
    if |s| > 0 {
      FilterCount(s[..|s| - 1], p);
      FilterSnocLength(s, p);
      PositionsSnoc(s, p);
    } else {
      assert Positions(s, p) == {} by {
        forall i | i in Positions(s, p) ensures false {
        }
      }
    }
  }

  /** The positions of `s` whose element satisfies `p`. */
  function Positions<T>(s: seq<T>, p: T -> bool): set<int> {
    set i | 0 <= i < |s| && p(s[i])
  }

  /** Filtering a sequence grown by one element at the end. */
  lemma FilterSnocLength<T(!new)>(s: seq<T>, p: T -> bool)
    requires |s| > 0
    ensures |Filter(s, p)| == |Filter(s[..|s| - 1], p)| + if p(s[|s| - 1]) then 1 else 0
  {
    var n := |s| - 1;
    var last := [s[n]];
    assert s == s[..n] + last;
    FilterAppend(s[..n], last, p);
    assert last[1..] == [];
  }

  /** The positions of a sequence grown by one element at the end. */
  lemma PositionsSnoc<T>(s: seq<T>, p: T -> bool)
    requires |s| > 0
    ensures |Positions(s, p)| == |Positions(s[..|s| - 1], p)| + if p(s[|s| - 1]) then 1 else 0
  {
    var n := |s| - 1;
    var before := Positions(s[..n], p);
    var grown := before + (if p(s[n]) then {n} else {});
    forall i ensures i in Positions(s, p) <==> i in grown {
      if 0 <= i < n {
        assert s[..n][i] == s[i];
      }
    }
    assert Positions(s, p) == grown;
    assert n !in before;
  }

  /** Every sequence is a subsequence of itself. */
  lemma {:induction false} SubseqRefl<T>(s: seq<T>)
    ensures SubseqOf(s, s)
    decreases |s|
  {
    if |s| > 0 {
      SubseqRefl(s[1..]);
    }
  }

  /** Deleting from a deletion of `s` is a deletion of `s`. */
  lemma {:induction false} SubseqTrans<T>(a: seq<T>, b: seq<T>, c: seq<T>)
    requires SubseqOf(a, b) && SubseqOf(b, c)
    ensures SubseqOf(a, c)
    decreases |c|
  {
    if |a| == 0 {
    } else if |b| == 0 {
    } else if |c| == 0 {
    } else if SubseqOf(b, c[1..]) {
      SubseqTrans(a, b, c[1..]);
    } else {
      assert b[0] == c[0] && SubseqOf(b[1..], c[1..]);
      if a[0] == b[0] && SubseqOf(a[1..], b[1..]) {
        SubseqTrans(a[1..], b[1..], c[1..]);
      } else {
        SubseqTrans(a, b[1..], c[1..]);
      }
    }
  }

  /** No element occurs twice. */
  predicate NoDup<T(==)>(s: seq<T>) {
    forall x :: x in s ==> multiset(s)[x] == 1
  }
}

=== FILE: text.dfy ===
/** String helpers shared by the pages: lower-casing, `includes`,
    `startsWith`, digit filtering and decimal rendering of numbers. */
module Text {
  /** Lower-case of one character (ASCII letters only). */
  function LowerChar(c: char): char {
    if 'A' <= c <= 'Z' then (c as int - 'A' as int + 'a' as int) as char else c
  }

  /** `s.toLowerCase()`, character by character. */
  function ToLower(s: string): (r: string)
    ensures |r| == |s|
    ensures forall i :: 0 <= i < |s| ==> r[i] == LowerChar(s[i])
    ensures forall i :: 0 <= i < |r| ==> !('A' <= r[i] <= 'Z')
  {
    seq(|s|, i requires 0 <= i < |s| => LowerChar(s[i]))
  }

  /** Lower-casing twice is lower-casing once. */
  lemma ToLowerIdempotent(s: string)
    ensures ToLower(ToLower(s)) == ToLower(s)
  {
  }

  /** `s.startsWith(p)`. */
  predicate IsPrefix(p: string, s: string) {
    |p| <= |s| && s[..|p|] == p
  }

  /** `s.includes(sub)`: `sub` occurs in `s` at some offset. */
  predicate Contains(s: string, sub: string)
    decreases |s|
  {
    IsPrefix(sub, s) || (|s| > 0 && Contains(s[1..], sub))
  }

  /** `sub` occurs in `s` starting at offset `i`. */
  predicate OccursAt(s: string, sub: string, i: int) {
    0 <= i && i + |sub| <= |s| && s[i..i + |sub|] == sub
  }

  /** `Contains` agrees with the offset-based definition of a substring. */
  lemma {:induction false} ContainsAt(s: string, sub: string)
    ensures Contains(s, sub) <==> exists i :: OccursAt(s, sub, i)
    decreases |s|
  {
    if Contains(s, sub) {
      if IsPrefix(sub, s) {
        assert OccursAt(s, sub, 0);
      } else {
        ContainsAt(s[1..], sub);
        var i :| OccursAt(s[1..], sub, i);
        assert s[i + 1..i + 1 + |sub|] == s[1..][i..i + |sub|];
        assert OccursAt(s, sub, i + 1);
      }
    }
    if exists i :: OccursAt(s, sub, i) {
      var i :| OccursAt(s, sub, i);
      if i == 0 {
        assert IsPrefix(sub, s);
      } else {
        assert s[1..][i - 1..i - 1 + |sub|] == s[i..i + |sub|];
        assert OccursAt(s[1..], sub, i - 1);
        ContainsAt(s[1..], sub);
      }
    }
  }

  /** Every string contains the empty string. */
  lemma ContainsEmpty(s: string)
    ensures Contains(s, "")
  {
    assert IsPrefix("", s);
  }

  /** A string is contained only in strings at least as long. */
  lemma {:induction false} ContainsLength(s: string, sub: string)
    requires Contains(s, sub)
    ensures |sub| <= |s|
    decreases |s|
  {
    if !IsPrefix(sub, s) {
      ContainsLength(s[1..], sub);
    }
  }

  /** `field.toLowerCase().includes(query.toLowerCase())`. */
  predicate Includes(field: string, query: string) {
    Contains(ToLower(field), ToLower(query))
  }

  /** An empty query is included in every field. */
  lemma IncludesEmpty(field: string)
    ensures Includes(field, "")
  {
    ContainsEmpty(ToLower(field));
  }

  /** A query longer than the field is never included in it. */
  lemma IncludesTooLong(field: string, query: string)
    requires |query| > |field|
    ensures !Includes(field, query)
  {
    if Includes(field, query) {
      ContainsLength(ToLower(field), ToLower(query));
    }
  }

  predicate IsDigit(c: char) {
    '0' <= c <= '9'
  }

  predicate AllDigits(s: string) {
    forall i :: 0 <= i < |s| ==> IsDigit(s[i])
  }

  /** `value.replace(/\s+/g, "").replace(/[^0-9]/gi, "")`: removing
      whitespace and then every non-digit leaves exactly the digits. */
  function KeepDigits(s: string): (r: string)
    ensures AllDigits(r)
    ensures |r| <= |s|
    decreases |s|
  {
    if |s| == 0 then []
    else (if IsDigit(s[0]) then [s[0]] else []) + KeepDigits(s[1..])
  }

  /** A digit string is its own digits. */
  lemma {:induction false} KeepDigitsOfDigits(s: string)
    requires AllDigits(s)
    ensures KeepDigits(s) == s
    decreases |s|
  {
    if |s| > 0 {
      KeepDigitsOfDigits(s[1..]);
      assert s == [s[0]] + s[1..];
    }
  }

  /** Removing non-digits commutes with concatenation. */
  lemma {:induction false} KeepDigitsAppend(a: string, b: string)
    ensures KeepDigits(a + b) == KeepDigits(a) + KeepDigits(b)
    decreases |a|
  {
    if |a| == 0 {
      assert a + b == b;
    } else {
      var head := if IsDigit(a[0]) then [a[0]] else [];
      assert (a + b)[1..] == a[1..] + b;
      assert (a + b)[0] == a[0];
      assert KeepDigits(a + b) == head + KeepDigits(a[1..] + b);
      assert KeepDigits(a) == head + KeepDigits(a[1..]);
      KeepDigitsAppend(a[1..], b);
    }
  }

  /** A non-digit character is dropped. */
  lemma KeepDigitsSkip(c: char)
    requires !IsDigit(c)
    ensures KeepDigits([c]) == []
  {
    assert [c][1..] == [];
  }

  /** Decimal rendering of a non-negative integer, as JavaScript prints it. */
  function NatToString(n: nat): (r: string)
    ensures |r| > 0 && AllDigits(r)
    ensures n < 10 <==> |r| == 1
    ensures r[0] == '0' <==> n == 0
  {
    if n < 10 then ["0123456789"[n]]
    else NatToString(n / 10) + ["0123456789"[n % 10]]
  }

  /** The value of a decimal digit; 0 for any other character. */
  function DigitValue(c: char): nat {
    if IsDigit(c) then c as int - '0' as int else 0
  }

  /** The number a string of decimal digits denotes, read left to right. */
  function DecimalValue(s: string): nat
    decreases |s|
  {
    if |s| == 0 then 0 else 10 * DecimalValue(s[..|s| - 1]) + DigitValue(s[|s| - 1])
  }

  /** Reading back the decimal rendering of a number gives the number. */
  lemma {:induction false} NatToStringRoundTrip(n: nat)
    ensures DecimalValue(NatToString(n)) == n
    decreases n
  {
    var r := NatToString(n);
    if n >= 10 {
      var q := NatToString(n / 10);
      NatToStringRoundTrip(n / 10);
      assert r[..|r| - 1] == q;
      assert DigitValue(r[|r| - 1]) == n % 10;
    } else {
      assert r[..0] == [];
      assert DigitValue(r[0]) == n;
    }
  }

  /** A JavaScript string's `length`: UTF-16 code units, two for each
      character outside the Basic Multilingual Plane. */
  function Utf16Length(s: string): (r: nat)
    ensures |s| <= r <= 2 * |s|
    ensures r == 0 <==> |s| == 0
    ensures r == |s| <==> forall i :: 0 <= i < |s| ==> (s[i] as int) < 0x1_0000
    decreases |s|
  {
    if |s| == 0 then 0
    else
      var rest := Utf16Length(s[1..]);
      assert forall i :: 1 <= i < |s| ==> s[1..][i - 1] == s[i];
      (if (s[0] as int) < 0x1_0000 then 1 else 2) + rest
  }
}

=== FILE: typewriter.dfy ===
/** The typewriter banner (components/ui/typewriter.tsx). In word mode it
    types the current word one character per tick, then deletes it one
    character per tick, then moves on to the next word, cyclically. In
    single-text mode it reveals one text once. Timer delays are not
    modelled: one `Step` is one timer callback, and the pause before
    deleting collapses into the step that starts it. */
module Typewriter {
  import opened Options
  import opened Text

  datatype State = State(displayText: string, wordIndex: nat, isDeleting: bool)

  const Initial := State("", 0, false)

  /** `words[currentWordIndex] || ""`. */
  function CurrentWord(words: seq<string>, i: nat): (w: string)
    ensures i < |words| ==> w == words[i]
    ensures i >= |words| ==> w == ""
  {
    if i < |words| then words[i] else ""
  }

  /** `s.substring(0, k)` for `k >= 0`: the first `k` characters, or all of
      them when there are fewer. */
  function Take(s: string, k: nat): (r: string)
    ensures |r| == if k <= |s| then k else |s|
    ensures IsPrefix(r, s)
  {
    if k <= |s| then s[..k] else s
  }

  /** One timer callback of word mode; `None` when there are no words (the
      effect returns without scheduling anything). */
  function Step(words: seq<string>, st: State): (r: Option<State>)
    ensures r.None? <==> |words| == 0
  {
    if |words| == 0 then None
    else
      var word := CurrentWord(words, st.wordIndex);
      var n := |st.displayText|;
      if st.isDeleting then
        if n > 0 then Some(st.(displayText := Take(word, n - 1)))
        else Some(st.(isDeleting := false, wordIndex := (st.wordIndex + 1) % |words|))
      else
        if n < |word| then Some(st.(displayText := Take(word, n + 1)))
        else Some(st.(isDeleting := true))
  }

  /** The state the banner keeps: the index names a word, and the text on
      screen is a beginning of that word. */
  predicate Wf(words: seq<string>, st: State) {
    st.wordIndex < |words| && IsPrefix(st.displayText, words[st.wordIndex])
  }

  /** Each tick keeps the banner well formed, and changes the text by at
      most one character: it grows only while typing, shrinks only while
      deleting, and the word changes only once the text is empty. */
  lemma StepKeepsWf(words: seq<string>, st: State)
    requires Wf(words, st)
    ensures Step(words, st).Some?
    ensures Wf(words, Step(words, st).value)
    ensures var t := Step(words, st).value;
      && (!st.isDeleting ==> |t.displayText| == |st.displayText| || |t.displayText| == |st.displayText| + 1)
      && (st.isDeleting ==> |t.displayText| == |st.displayText| || |t.displayText| + 1 == |st.displayText|)
      && (t.wordIndex != st.wordIndex ==> st.displayText == "" && t.displayText == "")
  {
    var w := words[st.wordIndex];
    var t := Step(words, st).value;
    if st.isDeleting && |st.displayText| > 0 {
      assert t.displayText == w[..|st.displayText| - 1];
    } else if !st.isDeleting && |st.displayText| < |w| {
      assert t.displayText == w[..|st.displayText| + 1];
    }
  }

  /** `n` ticks in a row. */
  function Run(words: seq<string>, st: State, n: nat): (r: State)
    requires |words| > 0
    decreases n
  {
    if n == 0 then st else Run(words, Step(words, st).value, n - 1)
  }

  /** Typing from the first `k` characters reaches the whole word after
      `|word| - k` ticks, without moving to another word. */
  lemma {:induction false} TypingCompletesWord(words: seq<string>, st: State, k: nat)
    requires Wf(words, st) && !st.isDeleting
    requires k == |st.displayText|
    ensures var t := Run(words, st, |words[st.wordIndex]| - k);
      t == State(words[st.wordIndex], st.wordIndex, false)
    decreases |words[st.wordIndex]| - k
  {
    var w := words[st.wordIndex];
    if k < |w| {
      var next := Step(words, st).value;
      assert next == st.(displayText := w[..k + 1]);
      TypingCompletesWord(words, next, k + 1);
    } else {
      assert st.displayText == w;
    }
  }

  /** Deleting from the first `k` characters empties the text after `k`
      ticks, and one more tick moves to the next word. */
  lemma {:induction false} DeletingMovesOn(words: seq<string>, st: State, k: nat)
    requires Wf(words, st) && st.isDeleting
    requires k == |st.displayText|
    ensures Run(words, st, k + 1) == State("", (st.wordIndex + 1) % |words|, false)
    decreases k
  {
    var w := words[st.wordIndex];
    if k > 0 {
      var next := Step(words, st).value;
      assert next == st.(displayText := w[..k - 1]);
      DeletingMovesOn(words, next, k - 1);
    }
  }

  /** A full cycle: from an empty banner at word `i`, after `2 * |word| + 2`
      ticks the banner is empty again at the next word. */
  lemma WordCycle(words: seq<string>, i: nat)
    requires i < |words|
    ensures Run(words, State("", i, false), 2 * |words[i]| + 2) == State("", (i + 1) % |words|, false)
  {
    var w := words[i];
    var st := State("", i, false);
    assert Wf(words, st);
    TypingCompletesWord(words, st, 0);
    RunSplit(words, st, |w|, 1);
    var deleting := Run(words, st, |w| + 1);
    assert deleting == State(w, i, true);
    assert IsPrefix(w, w);
    DeletingMovesOn(words, deleting, |w|);
    RunSplit(words, st, |w| + 1, |w| + 1);
  }

  /** Running `a` ticks and then `b` ticks is running `a + b` ticks. */
  lemma {:induction false} RunSplit(words: seq<string>, st: State, a: nat, b: nat)
    requires |words| > 0
    ensures Run(words, st, a + b) == Run(words, Run(words, st, a), b)
    decreases a
  {
    if a > 0 {
      RunSplit(words, Step(words, st).value, a - 1, b);
    }
  }

  /** Single-text mode runs only with a non-empty text and no words. */
  predicate SingleTextMode(text: string, words: seq<string>) {
    |text| > 0 && |words| == 0
  }

  /** The texts single-text mode shows, one per tick: every beginning of
      the text, from empty to whole. */
  function SingleTextFrames(text: string): (r: seq<string>)
    ensures |r| == |text| + 1
    ensures r[0] == "" && r[|text|] == text
    ensures forall i :: 0 <= i < |r| ==> |r[i]| == i && IsPrefix(r[i], text)
  {
    seq(|text| + 1, i requires 0 <= i <= |text| => text[..i])
  }

  /** Each frame extends the previous one by exactly the next character. */
  lemma FramesGrowByOne(text: string, i: int)
    requires 0 <= i < |text|
    ensures SingleTextFrames(text)[i + 1] == SingleTextFrames(text)[i] + [text[i]]
  {
    assert text[..i + 1] == text[..i] + [text[i]];
  }

  /** The single-text interval's own state: the text on screen and the
      interval's counter `i`. */
  datatype Reveal = Reveal(shown: string, i: nat)

  const RevealStart := Reveal("", 0)

  /** One interval tick when the caller passes a `words` array that stays
      the same between renders: show the first `i` characters and count on;
      past the end the interval stops. */
  function RevealTick(text: string, st: Reveal): (r: Reveal)
    ensures st.i <= |text| ==> r.i == st.i + 1 && |r.shown| == st.i && IsPrefix(r.shown, text)
    ensures st.i > |text| ==> r == st
  {
    if st.i <= |text| then Reveal(text[..st.i], st.i + 1) else st
  }

  /** One interval tick when the caller leaves `words` out. The default is
      a new empty array on every render, and the effect depends on it, so
      every render re-runs the effect: the interval is cleared and a new
      one starts counting at 0. A tick that changes the shown text
      re-renders, and so does `setIsTyping(false)` past the end. */
  function RevealTickUnstable(text: string, st: Reveal): (r: Reveal)
    ensures r.i == 0 || r.i == st.i + 1
    ensures r.i == st.i + 1 ==> r.shown == st.shown
  {
    if st.i <= |text| then
      if text[..st.i] != st.shown then Reveal(text[..st.i], 0) else Reveal(st.shown, st.i + 1)
    else Reveal(st.shown, 0)
  }

  /** `n` ticks of the single-text interval, with a stable or a defaulted
      `words` array. */
  function Ticks(text: string, st: Reveal, n: nat, stableWords: bool): Reveal
    decreases n
  {
    if n == 0 then st
    else
      var before := Ticks(text, st, n - 1, stableWords);
      if stableWords then RevealTick(text, before) else RevealTickUnstable(text, before)
  }

  /** With a stable `words` array, tick `k + 1` shows frame `k`: the text is
      revealed one character per tick, up to the whole text. */
  lemma {:induction false} StableRevealShowsFrames(text: string, k: nat)
    requires k <= |text|
    ensures Ticks(text, RevealStart, k + 1, true) == Reveal(SingleTextFrames(text)[k], k + 1)
    decreases k
  {
    if k > 0 {
      StableRevealShowsFrames(text, k - 1);
    }
  }

  /** With `words` left at its default, the interval keeps restarting: the
      screen only ever holds the empty text or the first character. */
  lemma {:induction false} UnstableRevealRestarts(text: string, n: nat)
    requires |text| >= 1
    ensures var st := Ticks(text, RevealStart, n, false);
      (st.shown == "" && st.i <= 1) || (st.shown == text[..1] && st.i == 0)
    decreases n
  {
    if n > 0 {
      UnstableRevealRestarts(text, n - 1);
      var before := Ticks(text, RevealStart, n - 1, false);
      if before.shown == "" && before.i == 0 {
        assert text[..0] == "";
      }
    }
  }

  /** So a text of two or more characters is never shown whole when
      `words` is left at its default, while a stable array shows it after
      `|text| + 1` ticks. */
  lemma UnstableRevealNeverFinishes(text: string, n: nat)
    requires |text| >= 2
    ensures Ticks(text, RevealStart, n, false).shown != text
    ensures Ticks(text, RevealStart, |text| + 1, true).shown == text
  {
    UnstableRevealRestarts(text, n);
    StableRevealShowsFrames(text, |text|);
  }

  /** The two modes never both run. */
  lemma ModesExclusive(text: string, words: seq<string>)
    ensures SingleTextMode(text, words) ==> Step(words, Initial).None?
    ensures Step(words, Initial).Some? ==> !SingleTextMode(text, words)
  {
  }
}
